=== FILE: README.md ===
# MongoDB explorer: a verified model of its data logic

`mongoexplorer.py` is a Tk desktop browser for MongoDB collections. A user connects to a
server, picks a database and a collection, and sees one page of documents in a grid. From
there they can filter, change the page size, page forward and back, sort by clicking a
heading, edit one field in a cell editor, replace a whole document, or delete a document.
This project models the logic between the MongoDB driver and the grid, and proves what that
logic guarantees.

- **Identity** (`identity.dfy`, `idpattern.dfy`, `query.dfy`). Every grid row is keyed by the
  extended-JSON text of its document's `_id`. `_get_id_query_from_bson` turns that key back
  into a query through a fallback chain:
  1. apostrophes become double quotes, and the text is parsed as extended JSON;
  2. on failure, the `"id"\s*:\s*"([^"]*)"` rescue, written out as a scan;
  3. then `ObjectId(token)`;
  4. then the raw text.

  `_get_clean_id` walks the same chain to get the id shown to the user. The two are proved to
  agree, and the key of a document is proved to find that document again. For a simple `_id`
  the key finds exactly that document. For a composite `_id`, it finds every document sharing
  the `id` part. As for any MongoDB field, a null `id` part also finds every document whose
  `_id` has no `id` part.

  These proofs hold for `Portable` identifiers: no apostrophe anywhere in the identifier, and
  no key that starts with `$`. The chain turns apostrophes into double quotes before parsing
  (line 608), so the key of an identifier such as `O'Brien` finds nothing, and the key of a composite
  identifier whose `id` part is `x'y` can find a different document whose `id` part is `x` (see
  Findings). The
  window's actions therefore look documents up with the corrected `Identity.QueryForRowKey`,
  which first reads the key as the extended JSON it is.
- **The grid** (`table.dfy`). The column list is `_id` followed by the other keys of the page,
  sorted, each once. Headings carry ` ↑`/` ↓` on the sorted column. Cell text is cut to 150
  characters, and object and array cells always get `...` appended. `load_documents` builds
  the grid with loops; each loop is a method proved against the function that specifies it.
- **Fetching** (`paging.dfy`, `store.dfy`). The fetch uses:
  - the filter text, where invalid JSON is reported and replaced by `{}`;
  - the sort, applied only when a sort column is set;
  - `skip = page × size` and `limit = size`.

  The store is an in-memory map from (database, collection) to a sequence of documents. `find`
  filters, sorts, then skips and limits. The sort follows MongoDB's order between types and
  within numbers, strings, ObjectIds and booleans. All objects compare equal to each other, and
  so do all arrays. Documents that tie keep their stored order. `update_one` with `$set`,
  `replace_one` and `delete_one` act on the first match and report a count.
- **The controller** (`explorer.dfy`). The window's state is a class. Its fields are the
  client, the selection, the filter text, the page size, the page, the sort column and
  direction, and the grid. The connect, select, filter, page-size, paging and sort actions are
  methods. So are the cell editor, the document editor and delete. Message boxes come back as
  notices. The user's answers and typed text are parameters. Every action's new state is
  stated against the pure function `Explorer.Reload`.
- **Editing** (`editing.dfy`). These are the rules for:
  - which fields are edited as JSON;
  - how edited text becomes a value (text that is not JSON stays a string);
  - what a whole-document save sends;
  - which field a double-click edits.

The extended-JSON library is a `Codec` value with five functions. The model assumes only two
things about it, in `Bson.Lawful`. First, a value without `$`-prefixed keys reads back from its
own extended JSON, as `dumps` writes it and as `pretty` indents it. Second, that text contains an apostrophe only where one of the value's
strings does. Lemmas that need these facts take `Lawful` as a precondition.

Three behaviours of the code are modelled as written:
- a non-JSON field edit stores the stripped text as a string, even when it looks like a number;
- a whole-document save reports success whether or not `replace_one` matched;
- a filter that is not JSON is reported, and the fetch goes on with `{}`.

## Model

| member | source | states |
|---|---|---|
| Bson.Get | mongoexplorer.py:478 | `doc.get(key)` is present exactly when the key is in the document, and is then its value |
| Bson.LowerHex | mongoexplorer.py:625 | each character of the result is the input's character, with `A`-`F` lowered to `a`-`f`, so hexadecimal digits come out lower-case |
| Bson.ParseObjectId | mongoexplorer.py:625 | `ObjectId(s)` succeeds exactly on 24 hexadecimal characters, and is then the ObjectId whose text is `s` in lower case: lower-case digits equal to `s` ignoring case |
| Bson.ObjectIdRoundTrip | mongoexplorer.py:625 | `ObjectId(str(o)) == o`: 24 lower-case hexadecimal digits read back as the ObjectId with exactly that text |
| Bson.ScalarText | mongoexplorer.py:487 | `str(v)` of a scalar: `None`, `True`/`False`, decimal digits, the string itself, the ObjectId's hex digits |
| Bson.ValueLe | mongoexplorer.py:443 | MongoDB's ascending order: by type rank first, then numbers by value, strings and ObjectIds by code point, false before true; objects tie and arrays tie |
| Bson.ValueLeTotal | mongoexplorer.py:443 | any two BSON values are comparable in MongoDB's sort order |
| Bson.ValueLeTransitive | mongoexplorer.py:443 | MongoDB's sort order is transitive, so a sorted page is well defined |
| Text.StripLeft | mongoexplorer.py:574 | `lstrip` gives a suffix of its input |
| Text.StripLeftDropsSpace | mongoexplorer.py:574 | `lstrip` drops only whitespace, and what it keeps does not start with whitespace |
| Text.StripRight | mongoexplorer.py:574 | `rstrip` gives a prefix of its input |
| Text.StripRightDropsSpace | mongoexplorer.py:574 | `rstrip` drops only whitespace, and what it keeps does not end with whitespace |
| Text.StripTrimsSpace | mongoexplorer.py:430-431 | the stripped filter neither starts nor ends with whitespace, and is empty exactly when the text is all whitespace |
| Text.StripAppendedNewline | mongoexplorer.py:574 | stripping the editor text after the final line break Tk appends gives back text that had no surrounding whitespace |
| Text.Strip | mongoexplorer.py:574 | `strip()` is `rstrip` after `lstrip`, and never longer than its input |
| Text.SwapQuotesAppend | mongoexplorer.py:608 | rewriting apostrophes distributes over concatenation |
| Text.SwapOneQuote | mongoexplorer.py:608 | one apostrophe between two apostrophe-free texts becomes a double quote and nothing else changes |
| Text.Take | mongoexplorer.py:487 | `s[:150]` is a prefix of `s` of length `min(len(s), 150)` |
| Text.SwapQuotes | mongoexplorer.py:608 | `replace("'", '"')` swaps exactly the apostrophes, leaves none, and leaves an apostrophe-free text unchanged |
| Text.NatToDecimal | mongoexplorer.py:487 | `str(n)` is non-empty decimal digits with no leading zero |
| Text.DecimalRoundTrip | mongoexplorer.py:487 | reading the digits of `str(n)` back gives `n` |
| Text.IntToDecimal | mongoexplorer.py:487 | `str(i)` starts with a minus sign exactly when `i` is negative, and the rest is decimal digits without leading zeros whose value is the magnitude of `i` |
| IdPattern.SkipSpacesSpec | mongoexplorer.py:619 | `\s*` consumes only whitespace and stops at the end or at a character that is not whitespace |
| IdPattern.NextQuoteSpec | mongoexplorer.py:619 | `[^"]*` consumes no quote and stops at the end or at a quote |
| IdPattern.MatchAt | mongoexplorer.py:619 | a match at a position starts with `"id"`, and its group holds no quote |
| IdPattern.SkipSpacesStops | mongoexplorer.py:619 | `\s*` over a run of whitespace stops exactly at the first character after it that is not whitespace |
| IdPattern.NextQuoteStops | mongoexplorer.py:619 | `[^"]*` over a quote-free run stops exactly at the quote after it |
| IdPattern.PatternParts | mongoexplorer.py:619 | the pattern laid out at given positions: `"id"`, whitespace, `:`, whitespace, `"`, a quote-free group, `"` |
| IdPattern.PatternAt | mongoexplorer.py:619 | the pattern `"id"\s*:\s*"([^"]*)"` occurs at a position with a given group |
| IdPattern.PartsHold | mongoexplorer.py:619 | the pieces the scan checks make up the pattern, with the group running up to the closing quote |
| IdPattern.MatchAtSound | mongoexplorer.py:619 | a match the scan reports is the pattern laid out there, with that group |
| IdPattern.MatchAtComplete | mongoexplorer.py:619 | wherever the pattern is laid out, the scan reports it with the same group |
| IdPattern.MatchAtSpec | mongoexplorer.py:619 | the scan matches at a position with group g exactly when the pattern occurs there with group g |
| IdPattern.SearchFromNone | mongoexplorer.py:619 | the scan from a position fails exactly when no later position matches |
| IdPattern.SearchFromLeftmost | mongoexplorer.py:619 | a successful scan returns the match at the leftmost matching position |
| IdPattern.Search | mongoexplorer.py:619 | `re.search(...).group(1)`, when found, holds no quote |
| IdPattern.SearchSpec | mongoexplorer.py:619-620 | `re.search` finds nothing exactly when no position matches, and otherwise returns the group of the leftmost match |
| IdPattern.RescueExample | mongoexplorer.py:608-622 | on `{"id": "d1"}` the rescue returns `d1` |
| Query.Matches | mongoexplorer.py:613-617 | `{"_id": v}` matches the `_id` equal to v; `{"_id.id": v}` matches an `_id` whose `id` part holds v, or, for null, an `_id` without one |
| Query.FilterMatches | mongoexplorer.py:439 | a filter of field equalities holds when every listed field holds its value, a null also matching a missing field |
| Query.Select | mongoexplorer.py:615-617 | a query selects exactly the stored documents it matches |
| Query.FirstIndex | mongoexplorer.py:547 | `find_one` returns the first matching document, and nothing exactly when none matches |
| Query.IdEqualsSelectsAtMostOne | mongoexplorer.py:617 | with unique identifiers, `{"_id": v}` selects at most one document |
| Identity.RowKey | mongoexplorer.py:489 | a row's key is the extended JSON of its `_id` |
| Identity.QueryFor | mongoexplorer.py:607-629 | the lookup as written: apostrophes rewritten and parsed, then the `"id"` rescue, then `ObjectId`, then the raw text; it never fails |
| Identity.DisplayId | mongoexplorer.py:397-412 | the id shown for a key is the value that key's query searches under `_id.id`, and otherwise the key text |
| Identity.RowKeyResolves | mongoexplorer.py:607-627 | a row key resolves to `{"_id.id": id.id}` for a composite `_id` and to `{"_id": id}` otherwise, and that query matches the document |
| Identity.RowKeyDisplay | mongoexplorer.py:397-408 | the id shown for a row is the composite `_id`'s `id` part, and otherwise the key text |
| Identity.RowKeysDistinct | mongoexplorer.py:489-491 | documents with distinct identifiers get distinct row keys, so the grid's row ids never clash |
| Identity.IdEqualsSelectsOne | mongoexplorer.py:617 | with unique identifiers, `{"_id": v}` selects exactly the document whose `_id` is v, and `find_one` returns it |
| Identity.RowKeySelectsOnlyItsDocument | mongoexplorer.py:607-627 | the key of a document with a simple `_id` finds that document and no other |
| Identity.RowKeySelectsSharedIdPart | mongoexplorer.py:613-615 | the key of a document with a composite `_id` finds exactly the documents whose `_id.id` holds the same value, and, when that value is null, also the documents whose `_id` has no `id` part |
| Identity.NullIdPart | mongoexplorer.py:613-615 | builds a document whose composite `_id` has a null `id` part |
| Identity.NullIdPartFindsAnotherDocument | mongoexplorer.py:613-615 | the key of a row whose `_id.id` is null first finds an earlier document with a plain ObjectId `_id`, so the editors and delete act on that other document |
| Identity.ApostropheKeyFindsNothing | mongoexplorer.py:607-629 | the key of the `_id` string `a'b` has its apostrophe rewritten to a double quote, no longer parses, and falls through to a raw-text query that does not match its own document |
| Identity.ApostropheIdPartFindsAnother | mongoexplorer.py:607-622 | for a composite `_id` whose `id` part `x'y` holds an apostrophe, the key `{"id": "x'y"}` becomes `{"id": "x"y"}`, the rescue reads `x`, and the lookup `{"_id.id": x}` misses the row's own document and first finds a stored document whose `id` part is `x` |
| Identity.CompositeKeyQuery | mongoexplorer.py:607-622 | the lookup for the key `{"id": "x'y"}` is `{"_id.id": x}` when the rewritten key does not parse |
| Identity.CompositeQuotesSwapped | mongoexplorer.py:608 | the key `{"id": "x'y"}` becomes `{"id": "x"y"}` once apostrophes are rewritten |
| Identity.CompositeKeyRescue | mongoexplorer.py:619-620 | the rescue reads `x` from `{"id": "x"y"}`, the group stopping at the first quote |
| Identity.QuotesSwappedInKey | mongoexplorer.py:608 | the key `"a'b"` becomes `"a"b"` once apostrophes are rewritten |
| Identity.KeyHasNoIdFragment | mongoexplorer.py:619 | the rewritten key `"a"b"` holds no `"id"` fragment |
| Identity.NoIdFragment | mongoexplorer.py:619 | text without the letter d never matches the `"id"` pattern |
| Identity.QueryForRowKey | mongoexplorer.py:607-629 | the corrected lookup: the key is first parsed as it is, and only a key that does not parse goes through the chain as written |
| Identity.QueryForRowKeyAgrees | mongoexplorer.py:607-629 | on a key without an apostrophe the corrected lookup is exactly the lookup as written |
| Identity.RowKeyAlwaysResolves | mongoexplorer.py:607-617 | with the corrected lookup, the key of any identifier without `$` keys, apostrophes included, resolves to `{"_id.id": id.id}` or `{"_id": id}` and matches its document |
| Identity.SensorLike | mongoexplorer.py:613-615 | builds a document whose composite `_id` has the `id` part "d1" |
| Identity.SensorLikePortable | mongoexplorer.py:489 | such an identifier reads back from its row key when its kind has no apostrophe |
| Identity.CompositeKeyCanSelectTwo | mongoexplorer.py:613-615 | two distinct identifiers sharing `id` are both selected by either one's row key |
| Store.SortKey | mongoexplorer.py:443 | a document sorts by its value in the column, and as null when it lacks the field |
| Store.Insert | mongoexplorer.py:443 | inserting adds exactly one copy of the document |
| Store.InsertSorted | mongoexplorer.py:443 | inserting into a sorted sequence keeps it sorted |
| Store.SortBy | mongoexplorer.py:443 | `sort(column, dir)` is a permutation of its input |
| Store.SortBySorted | mongoexplorer.py:443 | `sort(column, dir)` gives documents in order on that column and direction |
| Store.FilterDocs | mongoexplorer.py:439 | filtering never adds documents |
| Store.FilterDocsMembers | mongoexplorer.py:439 | the filter keeps exactly the stored documents that satisfy it |
| Store.Ordered | mongoexplorer.py:439-443 | the result before `skip` and `limit`: the filtered documents, sorted only when a sort is given |
| Store.OrderedSpec | mongoexplorer.py:439-443 | the sorted result is a permutation of the filtered documents, in order when a sort is given |
| Store.Window | mongoexplorer.py:439 | `skip(n).limit(m)` returns the remaining documents after n, capped at m when m is positive |
| Store.WindowSpec | mongoexplorer.py:439 | the window is the run of documents starting at `skip` |
| Store.WindowWithin | mongoexplorer.py:439 | a window holds only documents of its input |
| Store.OrderedWithin | mongoexplorer.py:439-443 | the sorted result holds only stored documents that satisfy the filter |
| Store.FindPage | mongoexplorer.py:439-445 | one `find(...).skip(...).limit(...)` call, with the sort applied before skip and limit |
| Store.FindPageSpec | mongoexplorer.py:439-445 | a page holds only stored documents that satisfy the filter, at most `limit` of them, and in order when sorted |
| Store.PageOfPosition | mongoexplorer.py:426-427 | with `skip = q × size`, position i of the result is row i mod size of page i div size |
| Store.PagePastTheEnd | mongoexplorer.py:450-455 | a page past the end of the result is empty |
| Store.Reading | mongoexplorer.py:443 | builds a document with the given `_id` and numeric `value` |
| Store.SortedPagingScenario | mongoexplorer.py:439-443 | sorting applies before skip and limit: sorted descending on "value" with pages of one, page 0 holds 20 and page 1 holds 10 |
| Store.SetFieldOne | mongoexplorer.py:583-588 | `update_one` with `$set` changes only that field of the first match, leaves every `_id` in place, and reports 1 exactly when something matched and the value changed |
| Store.ReplaceById | mongoexplorer.py:676-678 | `replace_one({"_id": id}, body)` makes the first match exactly `body` under the same `_id`, and reports 1 exactly when some document has that `_id` |
| Store.DeleteFirst | mongoexplorer.py:724-726 | `delete_one` removes exactly the first match and reports 1 exactly when something matched |
| Store.SameIdsStayUnique | mongoexplorer.py:583-586 | writes that keep every `_id` in place keep identifiers unique |
| Store.DeleteKeepsIdsUnique | mongoexplorer.py:724 | a delete keeps identifiers unique, and after `{"_id": v}` no document with v remains |
| Store.Server.Find | mongoexplorer.py:439-445 | a fetch returns the page of the selected collection |
| Store.Server.FindOne | mongoexplorer.py:547 | `find_one` returns the first matching document, or nothing when none matches |
| Store.Server.UpdateOne | mongoexplorer.py:583-588 | the collection becomes the result of the `$set`, the modified count is returned, and unique identifiers are kept |
| Store.Server.ReplaceOne | mongoexplorer.py:676-678 | the collection becomes the result of the replace, the matched count is returned, and unique identifiers are kept |
| Store.Server.DeleteOne | mongoexplorer.py:724-726 | the collection becomes the result of the delete, the deleted count is returned, and unique identifiers are kept |
| Table.AllKeys | mongoexplorer.py:457-459 | the key union of a non-empty page contains `_id` |
| Table.AllKeysSpec | mongoexplorer.py:457-459 | a key is in the union exactly when some document on the page has it |
| Table.SortedSetSpec | mongoexplorer.py:461 | `sorted` of a set of keys is strictly ascending and holds exactly the set |
| Table.SortedListOfSet | mongoexplorer.py:461 | sorting the keys in whatever order the set yields them gives the one strictly ascending list of them |
| Table.Columns | mongoexplorer.py:450-461 | a page has no columns exactly when it has no documents |
| Table.ColumnsSpec | mongoexplorer.py:461 | the columns are `_id` first, then every other key of the page once, ascending, and no others |
| Table.ColumnsIgnoreOrder | mongoexplorer.py:457-461 | the columns are the same for any order of the page's documents |
| Table.InsertKey | mongoexplorer.py:461 | inserting a key adds exactly one copy |
| Table.InsertKeySorted | mongoexplorer.py:461 | inserting into an ascending list keeps it ascending |
| Table.SortKeys | mongoexplorer.py:461 | `sorted` is a permutation of its input |
| Table.SortKeysSorted | mongoexplorer.py:461 | `sorted` gives an ascending list |
| Table.Heading | mongoexplorer.py:467-469 | the heading is the column name exactly when the grid is not sorted on it; otherwise the name, a space and the direction arrow |
| Table.Headings | mongoexplorer.py:465-471 | one heading per column |
| Table.HeadingsSpec | mongoexplorer.py:465-471 | heading j is the heading of column j |
| Table.CellText | mongoexplorer.py:478-487 | a missing or null value gives ""; an object or array whose compact JSON has n characters gives exactly its first min(n, 150) characters followed by "..."; a scalar whose text has n characters gives exactly its first min(n, 150) characters |
| Table.Cells | mongoexplorer.py:477-487 | one cell per column |
| Table.CellsSpec | mongoexplorer.py:477-487 | cell j renders the document's value under column j |
| Table.RenderRows | mongoexplorer.py:475-491 | one row per document |
| Table.RenderRowsSpec | mongoexplorer.py:475-491 | row i is keyed by document i's row key and holds document i's cells |
| Table.CollectKeys | mongoexplorer.py:457-459 | the `update` loop accumulates the key union |
| Table.SortedOtherKeys | mongoexplorer.py:461 | the keys other than `_id`, sorted, are exactly the sorted set of them |
| Table.BuildHeadings | mongoexplorer.py:465-471 | the heading loop produces the headings of the columns |
| Table.BuildCells | mongoexplorer.py:476-487 | the inner loop produces the cells of the document |
| Table.BuildRows | mongoexplorer.py:475-491 | the outer loop produces the rows of the page |
| Table.BuildTable | mongoexplorer.py:450-491 | `load_documents` builds exactly the grid of the page, with no columns and no rows for an empty page |
| Editing.IsJsonField | mongoexplorer.py:530 | a field is edited as JSON when it is one of the six JSON columns or its cell text starts with a bracket |
| Editing.ParseEdit | mongoexplorer.py:574-579 | text that is neither a JSON field nor starts with a bracket is stored as the stripped string; only JSON parsing can fail |
| Editing.DigitsStayText | mongoexplorer.py:574-579 | "42" typed into a plain field is stored as the string "42" |
| Editing.JsonEditRoundTrip | mongoexplorer.py:550-577 | saving unchanged the indented extended JSON the editor shows for a JSON field, with the line break Tk appends, stores the same value |
| Editing.ReplaceBody | mongoexplorer.py:670-674 | `pop('_id')` succeeds exactly on an object and gives its fields without `_id` |
| Editing.EditField | mongoexplorer.py:508 | the field a double-click edits is the label of the clicked column: a heading text as written, a column identifier once corrected |
| Editing.AsWrittenEditsColumnUnlessSorted | mongoexplorer.py:508-510 | the heading-text rule edits the clicked column exactly when the grid is not sorted on it |
| Editing.SortedHeadingIsNotAField | mongoexplorer.py:508-512 | sorted ascending on "value", the heading-text rule writes a field "value ↑"; sorted on `_id`, it lets `_id ↑` through the `_id` refusal |
| Editing.EditFieldIsDisplayedField | mongoexplorer.py:505-516 | with column identifiers, the field edited is exactly the field the clicked cell shows, and it is `_id` only for the first column |
| Paging.ResolveFilter | mongoexplorer.py:429-436 | reported bad JSON always goes on with the empty filter |
| Paging.ResolveFilterCases | mongoexplorer.py:429-439 | blank text gives `{}`; non-JSON text is reported and gives `{}`; a JSON object is the filter; JSON null gives `{}`; any other JSON value makes the fetch fail |
| Paging.SortFor | mongoexplorer.py:442-443 | a sort is applied exactly when a non-empty sort column is set, with the current direction |
| Paging.RequestFor | mongoexplorer.py:426-443 | the arguments of the fetch for page p of size n: the filter, the sort, skip p × n and limit n |
| Paging.RequestForSpec | mongoexplorer.py:426-439 | the fetch skips page × size documents and asks for at most size, with the filter and sort |
| Paging.EveryResultOnItsPage | mongoexplorer.py:426-443 | every document of the filtered, sorted result is on page i div size at row i mod size, and no page holds more than size |
| Paging.Toggled | mongoexplorer.py:386-392 | the clicked column becomes the sort column; the same column flips the direction, a new one sorts ascending |
| Paging.ToggleTwice | mongoexplorer.py:386-392 | toggling the same column twice restores the direction |
| Paging.PageAfter | mongoexplorer.py:377-382 | the page moves by delta when the result is not negative, and otherwise stays |
| Paging.PagingReturns | mongoexplorer.py:377-382 | forward then back returns to the same page, and back from the first page stays there |
| Navigation.DropSystem | mongoexplorer.py:127 | dropping never adds names |
| Navigation.DropSystemSpec | mongoexplorer.py:127 | dropping keeps exactly the names other than admin, local and config, and keeps an ascending list ascending |
| Navigation.ListedDatabases | mongoexplorer.py:126-127 | the listed databases are ascending and are exactly the server's databases other than admin, local and config |
| Explorer.ShownCell | mongoexplorer.py:514-515 | a non-empty shown value is the cell of a row with that key in the clicked column |
| Explorer.Reload | mongoexplorer.py:414-497 | `load_documents` as a function of the settings: nothing without a selection; an unhandled error without a client; a bad filter reported and replaced by `{}`; a failed fetch keeps the grid; otherwise the grid of the requested page |
| Explorer.Load | mongoexplorer.py:414-497 | `load_documents` gives exactly the notices and the grid `Reload` specifies |
| Explorer.Explorer.constructor | mongoexplorer.py:300-309 | no client, no selection, empty filter, 20 per page, page 0, unsorted, ascending |
| Explorer.Explorer.LoadDocuments | mongoexplorer.py:414-497 | settings unchanged; without a selection nothing happens; otherwise the grid becomes the grid of the requested page, or stays as it was when the fetch fails |
| Explorer.Explorer.Connect | mongoexplorer.py:336-354 | an empty URI is refused; otherwise the client becomes the server that answered, or none, and the selection is kept |
| Explorer.Explorer.LoadCollectionData | mongoexplorer.py:356-362 | selecting a collection resets page 0, no sort column, ascending, then reloads |
| Explorer.Explorer.EditFilterText | mongoexplorer.py:430 | the filter text changes and nothing else |
| Explorer.Explorer.ApplyFilter | mongoexplorer.py:364-369 | without a collection, a warning and no change; otherwise page 0 and a reload |
| Explorer.Explorer.ApplyPageSize | mongoexplorer.py:371-374 | the size is set; with a collection, page 0 and a reload; otherwise nothing else changes |
| Explorer.Explorer.ChangePage | mongoexplorer.py:376-382 | the page moves by delta and reloads, or stays with a notice when it would go negative; it never goes below 0 |
| Explorer.Explorer.ToggleSort | mongoexplorer.py:384-395 | sort column and direction toggle, page 0, then a reload |
| Explorer.Explorer.OpenCellEditor | mongoexplorer.py:518-558 | a JSON field's editor shows the stored value, fetched again by the row key, or the cell text with a warning; other fields show the cell text |
| Explorer.Explorer.OnCellDoubleClick | mongoexplorer.py:499-558 | the `_id` column is refused; any other column opens an editor on that column's identifier, which shows the indented extended JSON of the stored value for a JSON field the row key finds, and otherwise the cell text, with a warning exactly for a JSON field whose stored value is not found |
| Explorer.Explorer.SaveCellEdit | mongoexplorer.py:572-598 | invalid JSON changes nothing; otherwise `$set` of the one field on the document the row key finds, with success and a reload exactly when one document was modified |
| Explorer.Explorer.OpenDocument | mongoexplorer.py:631-665 | the document the row key finds is opened with its `_id` pinned; not found or an id that cannot be cut for the title gives an error |
| Explorer.Explorer.SaveDocument | mongoexplorer.py:667-684 | a parsed object without its `_id` replaces the document with the pinned `_id`, and success and a reload follow; anything else changes nothing |
| Explorer.Explorer.DeleteDocument | mongoexplorer.py:695-733 | nothing is deleted without a selection, a collection and a confirmation; otherwise the first document the row key finds is deleted, with success and a reload exactly when one was deleted |

## Left out

- Everything drawn on screen is not part of this model: widgets, styles, hover and stripe tags, grid lines, clipboard copy, window titles and labels (mongoexplorer.py:15-92, 184-288, 318-334, 565-570). `NavigationPanel` tree population is widget plumbing. Only its database list is modelled (`Navigation.ListedDatabases`); the lazy collection listing (mongoexplorer.py:160-174) is a driver call.
- `MongoClient` and the `ping` are network I/O. `Connect` takes the server that answered, or null, as a parameter.
- The driver is an in-memory store. Filters are top-level equalities, where null also matches a missing field; query operators such as `$gt` and dotted filter paths are not modelled. The BSON types are null, booleans, integers, strings, ObjectIds, objects and arrays. Floats, dates and the other BSON types are not modelled, and objects and arrays tie in the sort order.
- `json_util` and `json` are the abstract `Codec`. Their text formats are not modelled, and nor is an exception from `json.dumps` in a cell (mongoexplorer.py:484-485). The codec is taken to be total.
- `_get_clean_id`'s `ObjectId` branch (mongoexplorer.py:398-399) is not modelled, because every caller passes the row-key string.
- Exceptions from the driver's writes, such as a `$set` the server refuses (mongoexplorer.py:597-598), are not modelled. No write fails in the model; a count of 0 means only that nothing matched, or for `$set` that nothing changed.
- A non-object `_id` query for a key that parses to an array (mongoexplorer.py:617) matches nothing in the model. This holds because a stored `_id` is never an array.
- Exceptions the source does not catch, such as using a missing client, become the `Unhandled` notice. The state is left as it was.
- The cell editor and the document editor stay open across other actions. The model returns them as values, and a save takes the editor and the final text.
- Field order inside objects is not modelled: an object is a map. Two embedded documents with the same fields in a different order are one value here, and two to MongoDB. So a filter such as `{"meta": {"b": 2, "a": 1}}` matches a stored `{"meta": {"a": 1, "b": 2}}` under `Query.FilterMatches`, and MongoDB's `find` returns nothing. `Query.UniqueIds` treats two `_id`s that differ only in field order as equal, so it rejects collections the server accepts. The row-key lookups are not affected, because the codec writes and reads the fields of an `_id` in the same order.
- ObjectId text is not constrained to 24 lower-case hexadecimal digits. Only `Bson.ParseObjectId` produces that form, and `Bson.ValueLe` orders ObjectIds by their text. That is MongoDB's order only for such normalised text.
- Store.SortBySorted: the order proved is the model's simplified one. MongoDB sorts an array by its smallest element ascending and its largest element descending, and compares objects field by field; here all arrays tie and all objects tie.
- Store.PageOfPosition: relies on the model's tie order, where tied documents keep their stored order. MongoDB promises no order among ties, so across separate fetches a tied document may move between pages or appear on two of them.
- Paging.EveryResultOnItsPage: relies on the same deterministic tie order as `Store.PageOfPosition`, and on the simplified array and object order.
- Identity.RowKeyResolves: proved only for `Portable` identifiers. With an apostrophe the key as written finds nothing, or another document (see Findings). With a `$`-prefixed key the extended JSON reads back as a different value, and the model assumes nothing about it.
- Identity.RowKeySelectsOnlyItsDocument: proved only for `Portable` identifiers, for the reasons given under `Identity.RowKeyResolves`.
- Identity.RowKeySelectsSharedIdPart: proved only for `Portable` identifiers, for the reasons given under `Identity.RowKeyResolves`.
- Explorer.Explorer.OnCellDoubleClick: edits the clicked column's identifier, the corrected rule of the first Finding. Line 508 takes the heading text; that rule is modelled in `Editing.SortedHeadingIsNotAField`.
- Explorer.Explorer.OpenCellEditor: looks the document up with the corrected `Identity.QueryForRowKey`. It differs from the lookup at mongoexplorer.py:607-629 only on row keys that contain an apostrophe (`Identity.QueryForRowKeyAgrees`).
- Explorer.Explorer.SaveCellEdit: looks the document up with the corrected `Identity.QueryForRowKey`, for the reason given under `Explorer.Explorer.OpenCellEditor`.
- Explorer.Explorer.OpenDocument: looks the document up with the corrected `Identity.QueryForRowKey`, for the reason given under `Explorer.Explorer.OpenCellEditor`.
- Explorer.Explorer.DeleteDocument: looks the document up with the corrected `Identity.QueryForRowKey`, for the reason given under `Explorer.Explorer.OpenCellEditor`.
- Explorer.Explorer.OpenCellEditor: the warning path taken when formatting the stored value raises (mongoexplorer.py:556-558) is not modelled, because `pretty` is total in the model.

## Findings

| source | as written | input that shows it | evidently intended | confidence | as-written member | corrected member |
|---|---|---|---|---|---|---|
| mongoexplorer.py:508-512 | the double-click handler takes the field name from the heading text, which has ` ↑`/` ↓` on the sorted column (line 469) | a grid sorted ascending on `value`, then a double-click on a `value` cell: the edit sets a new field `value ↑`. Sorted on `_id`, the heading `_id ↑` passes the `_id` check | the field is the clicked column's identifier, so sorted columns edit their own field and `_id` is always refused | not executed; high | Editing.SortedHeadingIsNotAField | Editing.EditFieldIsDisplayedField |
| mongoexplorer.py:608-627 | the row key is rewritten, apostrophes to double quotes, before it is parsed, so an `_id` string holding an apostrophe gives a key that no longer parses | the `_id` string `a'b` (or `O'Brien`): its key `"a'b"` becomes `"a"b"`, which is not JSON and has no `"id"` fragment, so the query is `{"_id": "\"a'b\""}` and the cell editor, document editor and delete find nothing. A composite `_id` with `id` part `x'y` is worse: its key becomes `{"id": "x"y"}`, the rescue reads `x`, and `{"_id.id": x}` selects another stored document whose `id` part is `x`, which the editors and delete then act on (`Identity.ApostropheIdPartFindsAnother`) | the key is parsed as it is first, and the rewrite is only a fallback for keys that do not parse | not executed; medium | Identity.ApostropheKeyFindsNothing | Identity.RowKeyAlwaysResolves |

=== FILE: bson.dfy ===
/**
 * BSON values and documents as the explorer sees them, the ordering MongoDB sorts them by,
 * `ObjectId(str)`, and the extended-JSON library (`bson.json_util` and `json`) as a codec.
 */
module Bson {
  import opened Wrappers
  import opened Text

  /**
   * A BSON value. `Oid` holds the hexadecimal text of an ObjectId; `ParseObjectId` gives it as 24
   * lower-case digits, and no other text is constrained. Objects are maps, so their field order is lost.
   */
  datatype Value =
    | Null
    | Bool(b: bool)
    | Int(i: int)
    | Str(s: string)
    | Oid(hex: string)
    | Map(fields: map<string, Value>)
    | Arr(items: seq<Value>)

  /** A stored document: MongoDB gives every document an `_id`, and never an array one. */
  type Document = d: map<string, Value> | "_id" in d && !d["_id"].Arr? witness map["_id" := Null]

  /** `isinstance(v, (dict, list))`. */
  predicate IsStructured(v: Value)
  {
    v.Map? || v.Arr?
  }

  /** `doc.get(key)`. */
  function Get(d: Document, key: string): (r: Option<Value>)
    ensures r.Some? <==> key in d
    ensures r.Some? ==> r.value == d[key]
  {
    if key in d then Some(d[key]) else None
  }

  /** `str(v)` of a scalar value. */
  function ScalarText(v: Value): string
    requires !IsStructured(v)
  {
    match v
    case Null => "None"
    case Bool(b) => if b then "True" else "False"
    case Int(i) => IntToDecimal(i)
    case Str(s) => s
    case Oid(h) => h
  }

  predicate IsHexDigit(c: char)
  {
    '0' <= c <= '9' || 'a' <= c <= 'f' || 'A' <= c <= 'F'
  }

  /** A lower-case hexadecimal digit, as `str(ObjectId)` writes them. */
  predicate IsLowerHexDigit(c: char)
  {
    '0' <= c <= '9' || 'a' <= c <= 'f'
  }

  /** A hexadecimal letter in lower case; every other character unchanged. */
  function LowerHexDigit(c: char): char
  {
    if 'A' <= c <= 'F' then c - 'A' + 'a' else c
  }

  /** The text with its hexadecimal letters in lower case. */
  function LowerHex(s: string): (r: string)
    ensures |r| == |s|
    ensures forall i :: 0 <= i < |s| ==> r[i] == LowerHexDigit(s[i])
    ensures forall i :: 0 <= i < |s| && IsHexDigit(s[i]) ==> IsLowerHexDigit(r[i])
  {
    if s == [] then []
    else [LowerHexDigit(s[0])] + LowerHex(s[1..])
  }

  /**
   * `ObjectId(s)`: accepts exactly the 24-character hexadecimal strings, and is then the ObjectId
   * whose text is `s` in lower case. `None` means it raised.
   */
  function ParseObjectId(s: string): (r: Option<Value>)
    ensures r.Some? <==> |s| == 24 && forall i :: 0 <= i < |s| ==> IsHexDigit(s[i])
    ensures r.Some? ==> r.value.Oid? && |r.value.hex| == 24
                        && forall i :: 0 <= i < 24 ==>
                             IsLowerHexDigit(r.value.hex[i]) && LowerHexDigit(r.value.hex[i]) == LowerHexDigit(s[i])
  {
    if |s| == 24 && forall i :: 0 <= i < |s| ==> IsHexDigit(s[i]) then Some(Oid(LowerHex(s))) else None
  }

  /** `ObjectId(str(o)) == o`: the text of an ObjectId reads back as that very ObjectId. */
  lemma ObjectIdRoundTrip(h: string)
    requires |h| == 24 && forall i :: 0 <= i < |h| ==> IsLowerHexDigit(h[i])
    ensures ParseObjectId(h) == Some(Oid(h))
  {
    assert forall i :: 0 <= i < |h| ==> IsHexDigit(h[i]);
    assert LowerHex(h) == h;
  }

  /** No string and no key anywhere in `v` contains an apostrophe. */
  predicate QuoteFree(v: Value)
  {
    match v
    case Str(s) => '\'' !in s
    case Oid(h) => '\'' !in h
    case Map(m) => forall k :: k in m ==> '\'' !in k && QuoteFree(m[k])
    case Arr(xs) => forall i :: 0 <= i < |xs| ==> QuoteFree(xs[i])
    case _ => true
  }

  /** No key anywhere in `v` starts with `$` (such keys collide with extended-JSON markers like `$oid`). */
  predicate PlainKeys(v: Value)
  {
    match v
    case Map(m) => forall k :: k in m ==> (k == [] || k[0] != '$') && PlainKeys(m[k])
    case Arr(xs) => forall i :: 0 <= i < |xs| ==> PlainKeys(xs[i])
    case _ => true
  }

  /**
   * The serialisation libraries the explorer calls. They are not part of this model and
   * appear only through what `Lawful` assumes of them. A parse that raises gives `None`.
   */
  datatype Codec = Codec(
    loads: string -> Option<Value>,     // bson.json_util.loads
    dumps: Value -> string,             // bson.json_util.dumps (row keys)
    pretty: Value -> string,            // bson.json_util.dumps(v, indent=4) (editors)
    compact: Value -> string,           // json.dumps(v, default=json_util.default, separators=(',', ':'))
    jsonLoads: string -> Option<Value>) // json.loads (filters)

  /**
   * What the model assumes of `bson.json_util`: the extended JSON of `dumps` and of `pretty` reads
   * back what it wrote, for values whose keys do not look like extended-JSON markers; and JSON text holds an
   * apostrophe only where one of the value's strings does.
   */
  ghost predicate Lawful(c: Codec)
  {
    && (forall v :: PlainKeys(v) ==> c.loads(c.dumps(v)) == Some(v))
    && (forall v :: PlainKeys(v) ==> c.loads(c.pretty(v)) == Some(v))
    && (forall v :: QuoteFree(v) ==> '\'' !in c.dumps(v))
  }

  /** MongoDB's sort order between BSON types: null, numbers, strings, objects, arrays, ObjectId, booleans. */
  function TypeRank(v: Value): nat
  {
    match v
    case Null => 1
    case Int(_) => 2
    case Str(_) => 3
    case Map(_) => 4
    case Arr(_) => 5
    case Oid(_) => 7
    case Bool(_) => 8
  }

  /**
   * `a` sorts no later than `b` in an ascending MongoDB sort. Within a type: numbers by value,
   * strings and ObjectIds by code point, false before true; objects and arrays tie.
   */
  predicate ValueLe(a: Value, b: Value)
  {
    if TypeRank(a) != TypeRank(b) then TypeRank(a) < TypeRank(b)
    else match (a, b)
      case (Int(x), Int(y)) => x <= y
      case (Str(x), Str(y)) => StrLe(x, y)
      case (Oid(x), Oid(y)) => StrLe(x, y)
      case (Bool(x), Bool(y)) => !x || y
      case _ => true
  }

  lemma ValueLeTotal(a: Value, b: Value)
    ensures ValueLe(a, b) || ValueLe(b, a)
  {
    match (a, b)
    case (Str(x), Str(y)) => StrLeTotal(x, y);
    case (Oid(x), Oid(y)) => StrLeTotal(x, y);
    case _ =>
  }

  lemma ValueLeTransitive(a: Value, b: Value, c: Value)
    requires ValueLe(a, b) && ValueLe(b, c)
    ensures ValueLe(a, c)
  {
    if TypeRank(a) == TypeRank(b) == TypeRank(c) {
      match (a, b, c)
      case (Str(x), Str(y), Str(z)) => StrLeTransitive(x, y, z);
      case (Oid(x), Oid(y), Oid(z)) => StrLeTransitive(x, y, z);
      case _ =>
    }
  }
}

=== FILE: editing.dfy ===
/**
 * The rules of the two editors: which fields are edited as JSON, how the text of a cell edit
 * becomes a value, what a whole-document edit sends, and which field a double-click edits.
 */
module Editing {
  import opened Wrappers
  import opened Text
  import opened Bson
  import opened Table

  /** Fields that are always edited as JSON. */
  const JsonColumns: seq<string> := ["attrs", "location", "metadata", "servicePath", "attrNames", "entityType"]

  /** A field is edited as JSON when it is a known JSON column or its cell text starts with a bracket. */
  predicate IsJsonField(column: string, shown: string)
  {
    column in JsonColumns || StartsWithBracket(shown)
  }

  /**
   * The value a cell edit stores, from the editor's text. The text is stripped; it is read as
   * extended JSON when the field is a JSON field or the text starts with a bracket (None: not valid
   * JSON). Any other text is stored as that very string.
   */
  function ParseEdit(c: Codec, isJson: bool, text: string): (r: Option<Value>)
    ensures !isJson && !StartsWithBracket(Strip(text)) ==> r.Some? && r.value.Str? && r.value.s == Strip(text)
    ensures r.None? ==> isJson || StartsWithBracket(Strip(text))
  {
    var s := Strip(text);
    if isJson || StartsWithBracket(s) then c.loads(s) else Some(Str(s))
  }

  /** Text that looks like a number is stored as a string, not as a number. */
  lemma DigitsStayText(c: Codec)
    ensures ParseEdit(c, false, "42\n") == Some(Str("42"))
  {
    var t := "42";
    assert !IsSpace(t[0]) && !IsSpace(t[1]);
    StripAppendedNewline(t);
    assert t + "\n" == "42\n";
    assert Strip("42\n") == t && !StartsWithBracket(t);
  }

  /**
   * Saving, unchanged, the indented extended JSON the cell editor shows for a value, as the text
   * widget returns it (with a final line break), stores that value again when the field is edited
   * as JSON.
   */
  lemma JsonEditRoundTrip(c: Codec, v: Value, isJson: bool)
    requires Lawful(c) && PlainKeys(v)
    requires var t := c.pretty(v); t != [] && !IsSpace(t[0]) && !IsSpace(t[|t| - 1])
    requires isJson || StartsWithBracket(c.pretty(v))
    ensures ParseEdit(c, isJson, c.pretty(v) + "\n") == Some(v)
  {
    StripAppendedNewline(c.pretty(v));
  }

  /**
   * The replacement a whole-document edit sends: the parsed object without its `_id`. Anything
   * other than an object cannot have `_id` popped, and the save fails.
   */
  function ReplaceBody(v: Value): (r: Option<map<string, Value>>)
    ensures r.Some? <==> v.Map?
    ensures r.Some? ==> "_id" !in r.value && r.value.Keys == v.fields.Keys - {"_id"}
    ensures r.Some? ==> forall k :: k in r.value ==> r.value[k] == v.fields[k]
  {
    if v.Map? then Some(v.fields - {"_id"}) else None
  }

  /**
   * The field a double-click edits: the label of the clicked column. As written the labels are the
   * heading texts; corrected, they are the column identifiers.
   */
  function EditField(labels: seq<string>, i: nat): string
    requires i < |labels|
  {
    labels[i]
  }

  /** As written, the field edited is the column's name exactly when the grid is not sorted on that column. */
  lemma AsWrittenEditsColumnUnlessSorted(columns: seq<string>, sortColumn: Option<string>, dir: int, i: nat)
    requires i < |columns|
    ensures EditField(Headings(columns, sortColumn, dir), i) == columns[i] <==> sortColumn != Some(columns[i])
  {
    HeadingsSpec(columns, sortColumn, dir);
  }

  /**
   * A counterexample to the as-written rule: on a grid sorted ascending on "value", editing that
   * column writes a new field "value ↑"; sorted on "_id", the `_id` column is not refused.
   */
  lemma SortedHeadingIsNotAField()
    ensures EditField(Headings(["_id", "value"], Some("value"), 1), 1) == "value ↑"
    ensures EditField(Headings(["_id", "value"], Some("_id"), 1), 0) == "_id ↑" != "_id"
  {
    HeadingsSpec(["_id", "value"], Some("value"), 1);
    HeadingsSpec(["_id", "value"], Some("_id"), 1);
  }

  /**
   * With the corrected rule the edited field is exactly the field the clicked cell displays, and it
   * is `_id` only for the first column.
   */
  lemma EditFieldIsDisplayedField(c: Codec, docs: seq<Document>, row: nat, i: nat)
    requires row < |docs| && i < |Columns(docs)|
    ensures EditField(Columns(docs), i) == "_id" <==> i == 0
    ensures RenderRows(c, Columns(docs), docs)[row].cells == Cells(c, Columns(docs), docs[row])
    ensures Cells(c, Columns(docs), docs[row])[i] == CellText(c, Get(docs[row], EditField(Columns(docs), i)))
  {
    var cols := Columns(docs);
    ColumnsSpec(docs);
    RenderRowsSpec(c, cols, docs);
    CellsSpec(c, cols, docs[row]);
    if i > 0 {
      assert cols[i] == cols[1..][i - 1];
    }
  }
}

=== FILE: explorer.dfy ===
/**
 * The explorer window's controller: the selected database and collection, the filter text, the
 * page size, the current page, the sort column and direction, and the grid they produce; the
 * connect, navigation, filter, paging and sort actions; and the cell, document and delete handlers.
 * Message boxes are returned as notices; the user's answers and typed text are parameters.
 * Documents are looked up from a row key with the corrected `QueryForRowKey`, and a double-click
 * edits the clicked column's identifier (`EditField` on the column list).
 */
module Explorer {
  import opened Wrappers
  import opened Text
  import opened Bson
  import opened Query
  import opened Identity
  import opened Store
  import opened Table
  import opened Editing
  import opened Paging

  datatype Level = Info | Warning | Error

  datatype Message =
    | EmptyUri | Connected | ConnectFailed
    | SelectCollectionFirst | FirstPage | BadFilter | LoadFailed | Unhandled
    | IdNotEditable | FullValueUnavailable | FieldUpdated | FieldNotUpdated | InvalidJson
    | NoSelection | DocumentNotFound | DocumentFailed | DocumentUpdated | SaveFailed
    | NoCollection | Deleted | NotDeleted

  /** One message box: its kind and what it reports. */
  datatype Notice = Notice(level: Level, message: Message)

  /** An open cell editor: the collection it was opened on, the row key, the field, whether it edits JSON, its first text. */
  datatype CellEditor = CellEditor(server: Server, db: string, coll: string, token: string, column: string, isJson: bool, text: string)

  /** An open document editor: the collection, the `_id` of the document fetched when it opened, its first text. */
  datatype DocEditor = DocEditor(server: Server, db: string, coll: string, pinnedId: Value, text: string)

  /** The settings that drive a fetch: connection, selection, filter text, page size, page, sort. */
  datatype Settings = Settings(client: Server?, db: string, coll: string, filterText: string, pageSize: nat,
                               page: nat, sortColumn: Option<string>, dir: int)

  /** The text of column `i` in the row whose key is `key`, or "" when there is none. */
  function ShownCell(rows: seq<Row>, key: string, i: nat): (r: string)
    ensures r != "" ==> exists j :: 0 <= j < |rows| && rows[j].key == key && i < |rows[j].cells| && rows[j].cells[i] == r
  {
    if rows == [] then ""
    else if rows[0].key == key then (if i < |rows[0].cells| then rows[0].cells[i] else "")
    else
      var r := ShownCell(rows[1..], key, i);
      assert r != "" ==> exists j :: 1 <= j < |rows| && rows[j].key == key && i < |rows[j].cells| && rows[j].cells[i] == r by {
        if r != "" {
          var j :| 0 <= j < |rows[1..]| && rows[1..][j].key == key && i < |rows[1..][j].cells| && rows[1..][j].cells[i] == r;
          assert rows[j + 1] == rows[1..][j];
        }
      }
      r
  }

  /**
   * The outcome of `load_documents` in settings `s`, with `docs` stored in the selected collection,
   * from grid `before`: nothing without a selection; otherwise the grid of the page the settings ask
   * for, or the grid left as it was when the fetch raises. A filter that is not JSON is reported and
   * replaced by the empty filter.
   */
  ghost function Reload(codec: Codec, s: Settings, docs: seq<Document>, before: Grid): (seq<Notice>, Grid)
  {
    if s.db == "" || s.coll == "" then ([], before)
    else if s.client == null then ([Notice(Error, Unhandled)], before)
    else
      var f := ResolveFilter(codec, s.filterText);
      var warned := if f.badJson then [Notice(Error, BadFilter)] else [];
      match f.filter
      case None => (warned + [Notice(Error, LoadFailed)], before)
      case Some(m) =>
        (warned, GridOf(codec, FindPage(docs, RequestFor(m, s.page, s.pageSize, s.sortColumn, s.dir)), s.sortColumn, s.dir))
  }

  /** `load_documents` on the settings `s`: the fetch and the grid rebuild, from grid `before`. */
  method Load(codec: Codec, s: Settings, before: Grid) returns (notices: seq<Notice>, g: Grid)
    ensures (notices, g) == Reload(codec, s, if s.client == null then [] else s.client.Docs(s.db, s.coll), before)
  {
    if s.db == "" || s.coll == "" {
      return [], before;
    }
    if s.client == null {
      return [Notice(Error, Unhandled)], before;
    }
    var f := ResolveFilter(codec, s.filterText);
    notices := if f.badJson then [Notice(Error, BadFilter)] else [];
    if f.filter.None? {
      return notices + [Notice(Error, LoadFailed)], before;
    }
    var page := s.client.Find(s.db, s.coll, RequestFor(f.filter.value, s.page, s.pageSize, s.sortColumn, s.dir));
    g := BuildTable(codec, page, s.sortColumn, s.dir);
  }

  class Explorer {
    const codec: Codec
    var client: Server?
    var dbName: string          // "" while no database is selected
    var collName: string        // "" while no collection is selected
    var filterText: string
    var pageSize: nat
    var currentPage: nat
    var sortColumn: Option<string>
    var sortDirection: int
    var columns: seq<string>
    var headings: seq<string>
    var rows: seq<Row>

    /** The page size is one the selector offers and the direction is ascending or descending. */
    ghost predicate Valid()
      reads this
    {
      (pageSize == 20 || pageSize == 50 || pageSize == 100) && (sortDirection == 1 || sortDirection == -1)
    }

    function CurrentSettings(): Settings
      reads this
    {
      Settings(client, dbName, collName, filterText, pageSize, currentPage, sortColumn, sortDirection)
    }

    /** The settings are `s`, field by field. */
    predicate SettingsAre(s: Settings)
      reads this
    {
      client == s.client && dbName == s.db && collName == s.coll && filterText == s.filterText
      && pageSize == s.pageSize && currentPage == s.page && sortColumn == s.sortColumn && sortDirection == s.dir
    }

    function CurrentGrid(): Grid
      reads this
    {
      Grid(columns, headings, rows)
    }

    /** The documents of the selected collection, none without a client. */
    ghost function Stored(): seq<Document>
      reads this, client
    {
      if client == null then [] else client.Docs(dbName, collName)
    }

    /** The notices and the grid are what `load_documents` gives in the current settings, from grid `before`. */
    ghost predicate Reloaded(notices: seq<Notice>, before: Grid)
      reads this, client
    {
      (notices, CurrentGrid()) == Reload(codec, CurrentSettings(), Stored(), before)
    }

    constructor (codec: Codec)
      ensures this.codec == codec && Valid()
      ensures CurrentSettings() == Settings(null, "", "", "", 20, 0, None, 1)
      ensures CurrentGrid() == Grid([], [], [])
    {
      this.codec := codec;
      client := null;
      dbName, collName, filterText := "", "", "";
      pageSize, currentPage := 20, 0;
      sortColumn, sortDirection := None, 1;
      columns, headings, rows := [], [], [];
    }

    /** `load_documents`: fetches the current page and rebuilds the grid. */
    method LoadDocuments() returns (notices: seq<Notice>)
      requires Valid()
      modifies this
      ensures Valid() && SettingsAre(old(CurrentSettings()))
      ensures Reloaded(notices, old(CurrentGrid()))
    {
      var g;
      notices, g := Load(codec, CurrentSettings(), CurrentGrid());
      columns, headings, rows := g.columns, g.headings, g.rows;
    }

    /**
     * `connect_mongo`: `server` is the client that answered the ping, or null when it did not. An
     * empty URI is refused; a failed connection drops the client but keeps the selection.
     */
    method Connect(uri: string, server: Server?) returns (notices: seq<Notice>)
      modifies this
      ensures uri == "" ==> notices == [Notice(Error, EmptyUri)] && SettingsAre(old(CurrentSettings()))
      ensures uri != "" && server == null ==> notices == [Notice(Error, ConnectFailed)]
      ensures uri != "" && server != null ==> notices == [Notice(Info, Connected)]
      ensures uri != "" ==> SettingsAre(old(CurrentSettings()).(client := server))
      ensures CurrentGrid() == old(CurrentGrid())
    {
      if uri == "" {
        return [Notice(Error, EmptyUri)];
      }
      client := server;
      notices := if server == null then [Notice(Error, ConnectFailed)] else [Notice(Info, Connected)];
    }

    /** `load_collection_data`: selects a collection, back to the first page and unsorted. */
    method LoadCollectionData(db: string, coll: string) returns (notices: seq<Notice>)
      requires Valid()
      modifies this
      ensures Valid()
      ensures SettingsAre(old(CurrentSettings()).(db := db, coll := coll, page := 0, sortColumn := None, dir := 1))
      ensures Reloaded(notices, old(CurrentGrid()))
    {
      ghost var settings := CurrentSettings().(db := db, coll := coll, page := 0, sortColumn := None, dir := 1);
      dbName, collName := db, coll;
      currentPage := 0;
      sortColumn, sortDirection := None, 1;
      assert CurrentSettings() == settings;
      notices := LoadDocuments();
    }

    /** Typing in the filter box; the text is used by every later fetch. */
    method EditFilterText(text: string)
      modifies this
      ensures SettingsAre(old(CurrentSettings()).(filterText := text))
      ensures CurrentGrid() == old(CurrentGrid())
    {
      filterText := text;
    }

    /** `apply_filter`: without a collection a warning and nothing else; otherwise the first page again. */
    method ApplyFilter() returns (notices: seq<Notice>)
      requires Valid()
      modifies this
      ensures Valid()
      ensures old(collName) == "" ==> notices == [Notice(Warning, SelectCollectionFirst)]
                                      && SettingsAre(old(CurrentSettings())) && CurrentGrid() == old(CurrentGrid())
      ensures old(collName) != "" ==> SettingsAre(old(CurrentSettings()).(page := 0))
                                      && Reloaded(notices, old(CurrentGrid()))
    {
      if collName == "" {
        return [Notice(Warning, SelectCollectionFirst)];
      }
      currentPage := 0;
      notices := LoadDocuments();
    }

    /** `apply_page_size`: the selector sets the size; with a collection, back to the first page. */
    method ApplyPageSize(size: nat) returns (notices: seq<Notice>)
      requires Valid() && (size == 20 || size == 50 || size == 100)
      modifies this
      ensures Valid()
      ensures old(collName) == "" ==> notices == [] && SettingsAre(old(CurrentSettings()).(pageSize := size))
                                      && CurrentGrid() == old(CurrentGrid())
      ensures old(collName) != "" ==> SettingsAre(old(CurrentSettings()).(pageSize := size, page := 0))
                                      && Reloaded(notices, old(CurrentGrid()))
    {
      pageSize := size;
      if collName == "" {
        return [];
      }
      currentPage := 0;
      notices := LoadDocuments();
    }

    /** `change_page(delta)`: moves by `delta` and reloads, unless that would pass the first page. */
    method ChangePage(delta: int) returns (notices: seq<Notice>)
      requires Valid()
      modifies this
      ensures Valid()
      ensures SettingsAre(old(CurrentSettings()).(page := PageAfter(old(currentPage), delta)))
      ensures old(currentPage) + delta < 0 ==> notices == [Notice(Info, FirstPage)] && CurrentGrid() == old(CurrentGrid())
      ensures old(currentPage) + delta >= 0 ==> Reloaded(notices, old(CurrentGrid()))
    {
      var next := currentPage + delta;
      if next >= 0 {
        currentPage := next;
        notices := LoadDocuments();
      } else {
        notices := [Notice(Info, FirstPage)];
      }
    }

    /** `toggle_sort(column)`: a click on a heading. */
    method ToggleSort(column: string) returns (notices: seq<Notice>)
      requires Valid()
      modifies this
      ensures Valid()
      ensures var t := Toggled(old(sortColumn), old(sortDirection), column);
              SettingsAre(old(CurrentSettings()).(page := 0, sortColumn := t.0, dir := t.1))
      ensures Reloaded(notices, old(CurrentGrid()))
    {
      var t := Toggled(sortColumn, sortDirection, column);
      sortColumn, sortDirection := t.0, t.1;
      currentPage := 0;
      notices := LoadDocuments();
    }

    /**
     * `open_cell_editor`: a JSON field shows the full stored value, fetched again by the row key; when
     * that fails the shown (cut) text is used with a warning. Other fields show the cell text.
     */
    method OpenCellEditor(token: string, column: string, shown: string) returns (notices: seq<Notice>, editor: Option<CellEditor>)
      ensures client == null || collName == "" ==> notices == [] && editor.None?
      ensures client != null && collName != "" ==>
                editor.Some?
                && editor.value.server == client && editor.value.db == dbName && editor.value.coll == collName
                && editor.value.token == token && editor.value.column == column
                && editor.value.isJson == IsJsonField(column, shown)
      ensures editor.Some? ==>
                var docs := editor.value.server.Docs(dbName, collName);
                var found := FirstIndex(docs, QueryForRowKey(codec, token));
                if editor.value.isJson && found.Some? && column in docs[found.value]
                then editor.value.text == codec.pretty(docs[found.value][column]) && notices == []
                else editor.value.text == shown
                     && notices == if editor.value.isJson then [Notice(Warning, FullValueUnavailable)] else []
    {
      if client == null || collName == "" {
        return [], None;
      }
      var isJson := IsJsonField(column, shown);
      var text := shown;
      notices := [];
      if isJson {
        var doc := client.FindOne(dbName, collName, QueryForRowKey(codec, token));
        if doc.Some? && column in doc.value {
          text := codec.pretty(doc.value[column]);
        } else {
          notices := [Notice(Warning, FullValueUnavailable)];
        }
      }
      editor := Some(CellEditor(client, dbName, collName, token, column, isJson, text));
    }

    /**
     * `on_cell_double_click` on column `colIndex` of the selected row (None: not on a cell). The
     * field is the column's identifier; `_id` is refused with a warning.
     */
    method OnCellDoubleClick(selection: Option<string>, colIndex: Option<nat>) returns (notices: seq<Notice>, editor: Option<CellEditor>)
      requires colIndex.Some? ==> colIndex.value < |columns|
      ensures selection.None? || colIndex.None? ==> notices == [] && editor.None?
      ensures selection.Some? && colIndex.Some? && columns[colIndex.value] == "_id" ==>
                notices == [Notice(Warning, IdNotEditable)] && editor.None?
      ensures selection.Some? && colIndex.Some? && columns[colIndex.value] != "_id" ==>
                (editor.Some? <==> client != null && collName != "")
      ensures selection.Some? && colIndex.Some? && columns[colIndex.value] != "_id" && editor.None? ==> notices == []
      ensures editor.Some? ==>
                var shown := ShownCell(rows, selection.value, colIndex.value);
                var docs := editor.value.server.Docs(dbName, collName);
                var found := FirstIndex(docs, QueryForRowKey(codec, selection.value));
                editor.value.token == selection.value && editor.value.column == columns[colIndex.value]
                && editor.value.column != "_id" && editor.value.server == client
                && editor.value.db == dbName && editor.value.coll == collName
                && editor.value.isJson == IsJsonField(editor.value.column, shown)
                && if editor.value.isJson && found.Some? && editor.value.column in docs[found.value]
                   then editor.value.text == codec.pretty(docs[found.value][editor.value.column]) && notices == []
                   else editor.value.text == shown
                        && notices == if editor.value.isJson then [Notice(Warning, FullValueUnavailable)] else []
    {
      if selection.None? || colIndex.None? {
        return [], None;
      }
      var column := EditField(columns, colIndex.value);
      if column == "_id" {
        return [Notice(Warning, IdNotEditable)], None;
      }
      notices, editor := OpenCellEditor(selection.value, column, ShownCell(rows, selection.value, colIndex.value));
    }

    /**
     * `save_cell_edition` with the editor's current `text`: `$set` of the one field on the document
     * the row key finds; success only when exactly one document was modified, then a reload.
     */
    method SaveCellEdit(e: CellEditor, text: string) returns (notices: seq<Notice>)
      requires Valid() && e.column != "_id"
      modifies this, e.server
      ensures Valid() && SettingsAre(old(CurrentSettings()))
      ensures old(e.server.Valid()) ==> e.server.Valid()
      ensures ParseEdit(codec, e.isJson, text).None? ==>
                notices == [Notice(Error, InvalidJson)]
                && e.server.collections == old(e.server.collections) && CurrentGrid() == old(CurrentGrid())
      ensures ParseEdit(codec, e.isJson, text).Some? ==>
                var w := SetFieldOne(old(e.server.Docs(e.db, e.coll)), QueryForRowKey(codec, e.token), e.column,
                                     ParseEdit(codec, e.isJson, text).value);
                e.server.collections == (if w.count == 0 then old(e.server.collections)
                                         else old(e.server.collections)[(e.db, e.coll) := w.docs])
                && (w.count == 1 ==> notices != [] && notices[0] == Notice(Info, FieldUpdated)
                                     && Reloaded(notices[1..], old(CurrentGrid())))
                && (w.count != 1 ==> notices == [Notice(Warning, FieldNotUpdated)] && CurrentGrid() == old(CurrentGrid()))
    {
      var value := ParseEdit(codec, e.isJson, text);
      if value.None? {
        return [Notice(Error, InvalidJson)];
      }
      var modified := e.server.UpdateOne(e.db, e.coll, QueryForRowKey(codec, e.token), e.column, value.value);
      if modified == 1 {
        var reload := LoadDocuments();
        notices := [Notice(Info, FieldUpdated)] + reload;
      } else {
        notices := [Notice(Warning, FieldNotUpdated)];
      }
    }

    /**
     * `open_document_op` on the selected row: fetches the document the row key finds and pins its
     * `_id`. The window title cuts the display id to 50 characters, which raises unless that id is a
     * string or an array.
     */
    method OpenDocument(selection: Option<string>) returns (notices: seq<Notice>, editor: Option<DocEditor>)
      ensures selection.None? ==> notices == [Notice(Info, NoSelection)] && editor.None?
      ensures selection.Some? && (client == null || dbName == "" || collName == "") ==>
                notices == [Notice(Error, Unhandled)] && editor.None?
      ensures selection.Some? && client != null && dbName != "" && collName != "" ==>
                var q := QueryForRowKey(codec, selection.value);
                var docs := client.Docs(dbName, collName);
                var shown := DisplayId(codec, selection.value);
                match FirstIndex(docs, q)
                case None => notices == [Notice(Error, DocumentNotFound)] && editor.None?
                case Some(i) =>
                  if shown.Str? || shown.Arr? then
                    notices == [] && editor == Some(DocEditor(client, dbName, collName, docs[i]["_id"], codec.pretty(Map(docs[i]))))
                  else notices == [Notice(Error, DocumentFailed)] && editor.None?
      ensures editor.Some? ==> !editor.value.pinnedId.Arr?
    {
      if selection.None? {
        return [Notice(Info, NoSelection)], None;
      }
      if client == null || dbName == "" || collName == "" {
        return [Notice(Error, Unhandled)], None;
      }
      var q := QueryForRowKey(codec, selection.value);
      var shown := DisplayId(codec, selection.value);
      var doc := client.FindOne(dbName, collName, q);
      if doc.None? {
        return [Notice(Error, DocumentNotFound)], None;
      }
      if !(shown.Str? || shown.Arr?) {
        return [Notice(Error, DocumentFailed)], None;
      }
      notices := [];
      editor := Some(DocEditor(client, dbName, collName, doc.value["_id"], codec.pretty(Map(doc.value))));
    }

    /**
     * `save_document` with the editor's current `text`: the parsed object, without any `_id` it
     * holds, replaces the document with the pinned `_id`. Success is reported whether or not a
     * document matched.
     */
    method SaveDocument(e: DocEditor, text: string) returns (notices: seq<Notice>)
      requires Valid() && !e.pinnedId.Arr?
      modifies this, e.server
      ensures Valid() && SettingsAre(old(CurrentSettings()))
      ensures old(e.server.Valid()) ==> e.server.Valid()
      ensures var body := if codec.loads(text).Some? then ReplaceBody(codec.loads(text).value) else None;
              if body.None? then
                notices == [Notice(Error, SaveFailed)]
                && e.server.collections == old(e.server.collections) && CurrentGrid() == old(CurrentGrid())
              else
                var w := ReplaceById(old(e.server.Docs(e.db, e.coll)), e.pinnedId, body.value);
                e.server.collections == (if w.count == 0 then old(e.server.collections)
                                         else old(e.server.collections)[(e.db, e.coll) := w.docs])
                && notices != [] && notices[0] == Notice(Info, DocumentUpdated)
                && Reloaded(notices[1..], old(CurrentGrid()))
    {
      var parsed := codec.loads(text);
      if parsed.None? {
        return [Notice(Error, SaveFailed)];
      }
      var body := ReplaceBody(parsed.value);
      if body.None? {
        return [Notice(Error, SaveFailed)];
      }
      var matched := e.server.ReplaceOne(e.db, e.coll, e.pinnedId, body.value);
      var reload := LoadDocuments();
      notices := [Notice(Info, DocumentUpdated)] + reload;
    }

    /**
     * `delete_document_op` on the selected row; `confirmed` is the answer to the confirmation. Nothing
     * is deleted unless it is yes; success only when exactly one document was deleted, then a reload.
     */
    method DeleteDocument(selection: Option<string>, confirmed: bool) returns (notices: seq<Notice>)
      requires Valid()
      modifies this, client
      ensures Valid() && SettingsAre(old(CurrentSettings()))
      ensures client != null && old(client.Valid()) ==> client.Valid()
      ensures selection.None? ==> notices == [Notice(Info, NoSelection)]
      ensures selection.Some? && (dbName == "" || collName == "") ==> notices == [Notice(Warning, NoCollection)]
      ensures selection.None? || dbName == "" || collName == "" || !confirmed || client == null ==>
                CurrentGrid() == old(CurrentGrid()) && (client != null ==> client.collections == old(client.collections))
      ensures selection.Some? && dbName != "" && collName != "" && confirmed && client == null ==>
                notices == [Notice(Error, Unhandled)]
      ensures selection.Some? && dbName != "" && collName != "" && !confirmed ==> notices == []
      ensures selection.Some? && dbName != "" && collName != "" && confirmed && client != null ==>
                var w := DeleteFirst(old(client.Docs(dbName, collName)), QueryForRowKey(codec, selection.value));
                client.collections == (if w.count == 0 then old(client.collections)
                                       else old(client.collections)[(dbName, collName) := w.docs])
                && (w.count == 1 ==> notices != [] && notices[0] == Notice(Info, Deleted)
                                     && Reloaded(notices[1..], old(CurrentGrid())))
                && (w.count != 1 ==> notices == [Notice(Error, NotDeleted)] && CurrentGrid() == old(CurrentGrid()))
    {
      if selection.None? {
        return [Notice(Info, NoSelection)];
      }
      if dbName == "" || collName == "" {
        return [Notice(Warning, NoCollection)];
      }
      if !confirmed {
        return [];
      }
      if client == null {
        return [Notice(Error, Unhandled)];
      }
      var deleted := client.DeleteOne(dbName, collName, QueryForRowKey(codec, selection.value));
      if deleted == 1 {
        var reload := LoadDocuments();
        notices := [Notice(Info, Deleted)] + reload;
      } else {
        notices := [Notice(Error, NotDeleted)];
      }
    }
  }
}

=== FILE: identity.dfy ===
/**
 * Document identity: the row key a document gets in the grid, the query that finds the
 * document again from that key (`_get_id_query_from_bson`), and the short id shown to the
 * user (`_get_clean_id`). Both walk the same fallback chain over the key text: the
 * extended-JSON parse, then the `"id":"..."` rescue, then `ObjectId(token)`, then the raw text.
 */
module Identity {
  import opened Wrappers
  import opened Text
  import opened Bson
  import opened IdPattern
  import opened Query

  /** The grid row's key: `json_util.dumps(doc['_id'])`. */
  function RowKey(c: Codec, d: Document): string
  {
    c.dumps(d["_id"])
  }

  /** `_get_id_query_from_bson(token)`: total, so the lookup never raises. */
  function QueryFor(c: Codec, token: string): Query
  {
    var cleaned := SwapQuotes(token);
    match c.loads(cleaned)
    case Some(v) =>
      if HasIdField(v) then IdFieldEquals(v.fields["id"]) else IdEquals(v)
    case None =>
      match Search(cleaned)
      case Some(x) => IdFieldEquals(Str(x))
      case None =>
        match ParseObjectId(token)
        case Some(oid) => IdEquals(oid)
        case None => IdEquals(Str(token))
  }

  /** The id shown for a key whose lookup is `q`: the value searched under `_id.id`, else the key text. */
  function ShownFor(q: Query, token: string): Value
  {
    if q.IdFieldEquals? then q.value else Str(token)
  }

  /** `_get_clean_id(token)`: it agrees with the query built from the same key. */
  function DisplayId(c: Codec, token: string): (r: Value)
    ensures r == ShownFor(QueryFor(c, token), token)
  {
    var cleaned := SwapQuotes(token);
    match c.loads(cleaned)
    case Some(v) =>
      if HasIdField(v) then v.fields["id"] else Str(token)
    case None =>
      match Search(cleaned)
      case Some(x) => Str(x)
      case None => Str(token)
  }

  /** Identifiers whose row key reads back as the same value: no `$` keys, no apostrophes. */
  predicate Portable(id: Value)
  {
    PlainKeys(id) && QuoteFree(id)
  }

  /** The row key of a document resolves to `{"_id.id": id.id}` for a composite identifier and to `{"_id": id}` otherwise, and that query matches the document. */
  lemma RowKeyResolves(c: Codec, d: Document)
    requires Lawful(c) && Portable(d["_id"])
    ensures QueryFor(c, RowKey(c, d)) ==
              if HasIdField(d["_id"]) then IdFieldEquals(d["_id"].fields["id"]) else IdEquals(d["_id"])
    ensures Matches(QueryFor(c, RowKey(c, d)), d)
  {
    assert SwapQuotes(RowKey(c, d)) == RowKey(c, d);
  }

  /** The id shown for a row is the composite identifier's `id` part, otherwise the key text itself. */
  lemma RowKeyDisplay(c: Codec, d: Document)
    requires Lawful(c) && Portable(d["_id"])
    ensures DisplayId(c, RowKey(c, d)) ==
              if HasIdField(d["_id"]) then d["_id"].fields["id"] else Str(RowKey(c, d))
  {
    RowKeyResolves(c, d);
  }

  /** Distinct identifiers give distinct row keys, so the grid can key its rows by them. */
  lemma RowKeysDistinct(c: Codec, d1: Document, d2: Document)
    requires Lawful(c) && PlainKeys(d1["_id"]) && PlainKeys(d2["_id"]) && d1["_id"] != d2["_id"]
    ensures RowKey(c, d1) != RowKey(c, d2)
  {
    assert c.loads(c.dumps(d1["_id"])) == Some(d1["_id"]);
    assert c.loads(c.dumps(d2["_id"])) == Some(d2["_id"]);
  }

  /** `{"_id": v}` selects exactly the document at position i when that document's identifier is v. */
  lemma {:induction false} IdEqualsSelectsOne(docs: seq<Document>, i: nat)
    requires UniqueIds(docs) && i < |docs|
    ensures Select(docs, IdEquals(docs[i]["_id"])) == [docs[i]]
    ensures FirstIndex(docs, IdEquals(docs[i]["_id"])) == Some(i)
  {
    var q := IdEquals(docs[i]["_id"]);
    UniqueIdsTail(docs);
    if i == 0 {
      forall j | 0 <= j < |docs[1..]| ensures !Matches(q, docs[1..][j]) {
        assert docs[1..][j] == docs[j + 1];
      }
      SelectNone(docs[1..], q);
    } else {
      assert docs[1..][i - 1] == docs[i];
      IdEqualsSelectsOne(docs[1..], i - 1);
    }
  }

  /** With unique identifiers, the key of a document with a simple identifier finds that document and no other. */
  lemma RowKeySelectsOnlyItsDocument(c: Codec, docs: seq<Document>, i: nat)
    requires Lawful(c) && UniqueIds(docs) && i < |docs|
    requires Portable(docs[i]["_id"]) && !HasIdField(docs[i]["_id"])
    ensures Select(docs, QueryFor(c, RowKey(c, docs[i]))) == [docs[i]]
    ensures FirstIndex(docs, QueryFor(c, RowKey(c, docs[i]))) == Some(i)
  {
    RowKeyResolves(c, docs[i]);
    IdEqualsSelectsOne(docs, i);
  }

  /**
   * The key of a document with a composite identifier finds that document, together with every
   * document whose identifier has the same `id` part, and, when that part is null, every document
   * whose identifier has no `id` part at all.
   */
  lemma RowKeySelectsSharedIdPart(c: Codec, docs: seq<Document>, i: nat)
    requires Lawful(c) && i < |docs| && Portable(docs[i]["_id"]) && HasIdField(docs[i]["_id"])
    ensures docs[i] in Select(docs, QueryFor(c, RowKey(c, docs[i])))
    ensures forall d: Document :: d in Select(docs, QueryFor(c, RowKey(c, docs[i]))) <==>
              d in docs && if HasIdField(d["_id"]) then Holds(d["_id"].fields["id"], docs[i]["_id"].fields["id"])
                           else docs[i]["_id"].fields["id"] == Null
  {
    RowKeyResolves(c, docs[i]);
  }

  /** A document whose composite identifier `{"id": null, "type": "x"}` has a null `id` part. */
  function NullIdPart(): (d: Document)
    ensures HasIdField(d["_id"]) && d["_id"].fields["id"] == Null
  {
    map["_id" := Map(map["id" := Null, "type" := Str("x")])]
  }

  /**
   * The key of a row whose identifier has a null `id` part finds, first, a document stored before
   * it whose identifier is an ObjectId: that is the document the cell editor, the document editor
   * and delete act on.
   */
  lemma NullIdPartFindsAnotherDocument(c: Codec)
    requires Lawful(c)
    ensures var plain: Document := map["_id" := Oid("000000000000000000000000")];
            UniqueIds([plain, NullIdPart()])
            && FirstIndex([plain, NullIdPart()], QueryFor(c, RowKey(c, NullIdPart()))) == Some(0)
  {
    var plain: Document := map["_id" := Oid("000000000000000000000000")];
    var fields := NullIdPart()["_id"].fields;
    forall k | k in fields ensures (k == [] || k[0] != '$') && '\'' !in k && PlainKeys(fields[k]) && QuoteFree(fields[k]) {
      assert k == "id" || k == "type";
    }
    RowKeyResolves(c, NullIdPart());
    assert Matches(IdFieldEquals(Null), plain);
  }

  /**
   * An identifier string with an apostrophe, `"a'b"`, whose row key is its JSON text. Once the
   * apostrophe becomes a double quote the key no longer parses, has no `"id"` fragment and is no
   * ObjectId, so the lookup searches for the key text itself, quotes included, and finds nothing.
   */
  lemma ApostropheKeyFindsNothing(c: Codec)
    requires Lawful(c) && c.dumps(Str("a'b")) == "\"a'b\"" && c.loads("\"a\"b\"").None?
    ensures var d: Document := map["_id" := Str("a'b")];
            QueryFor(c, RowKey(c, d)) == IdEquals(Str("\"a'b\"")) && !Matches(QueryFor(c, RowKey(c, d)), d)
  {
    QuotesSwappedInKey();
    KeyHasNoIdFragment();
  }

  /** The key text `"a'b"` with its apostrophe rewritten. */
  lemma QuotesSwappedInKey()
    ensures SwapQuotes("\"a'b\"") == "\"a\"b\""
  {
    var a, b := "\"a", "b\"";
    assert "\"a'b\"" == a + "'" + b;
    assert "\"a\"b\"" == a + "\"" + b;
    SwapOneQuote(a, b);
  }

  /** The rewritten key `"a"b"` has no `"id"` fragment. */
  lemma KeyHasNoIdFragment()
    ensures Search("\"a\"b\"").None?
  {
    NoIdFragment("\"a\"b\"");
  }

  /** The text of a composite key up to its `id` text: `{"id": "`. */
  const IdKeyPrefix: string := "{\"id\": \""

  /**
   * A composite identifier whose `id` part `x'y` holds an apostrophe, written `{"id": "x'y"}`.
   * The rewrite turns the key into `{"id": "x"y"}`, which does not parse, and the `"id"` rescue
   * then reads only `x`: the lookup selects first a document whose `id` part is `x`, which the
   * editors and delete then act on, and never the row's own document.
   */
  lemma ApostropheIdPartFindsAnother(c: Codec, x: string, y: string)
    requires Lawful(c) && '"' !in x && '\'' !in x && '\'' !in y
    requires c.dumps(Map(map["id" := Str(x + "'" + y)])) == IdKeyPrefix + x + "'" + y + "\"}"
    requires c.loads(IdKeyPrefix + x + "\"" + y + "\"}").None?
    ensures var d: Document := map["_id" := Map(map["id" := Str(x + "'" + y)])];
            var other: Document := map["_id" := Map(map["id" := Str(x)])];
            UniqueIds([other, d]) && QueryFor(c, RowKey(c, d)) == IdFieldEquals(Str(x))
            && !Matches(QueryFor(c, RowKey(c, d)), d)
            && FirstIndex([other, d], QueryFor(c, RowKey(c, d))) == Some(0)
  {
    var other: Document := map["_id" := Map(map["id" := Str(x)])];
    CompositeKeyQuery(c, x, y);
    assert |x + "'" + y| != |x|;
    assert Matches(IdFieldEquals(Str(x)), other);
  }

  /** The lookup for the key `{"id": "x'y"}` is `{"_id.id": x}`. */
  lemma CompositeKeyQuery(c: Codec, x: string, y: string)
    requires '"' !in x && '\'' !in x && '\'' !in y
    requires c.dumps(Map(map["id" := Str(x + "'" + y)])) == IdKeyPrefix + x + "'" + y + "\"}"
    requires c.loads(IdKeyPrefix + x + "\"" + y + "\"}").None?
    ensures QueryFor(c, c.dumps(Map(map["id" := Str(x + "'" + y)]))) == IdFieldEquals(Str(x))
  {
    CompositeQuotesSwapped(x, y);
    CompositeKeyRescue(x, y);
  }

  /** Rewriting the apostrophes of `{"id": "x'y"}` gives `{"id": "x"y"}`. */
  lemma CompositeQuotesSwapped(x: string, y: string)
    requires '\'' !in x && '\'' !in y
    ensures SwapQuotes(IdKeyPrefix + x + "'" + y + "\"}") == IdKeyPrefix + x + "\"" + y + "\"}"
  {
    var left, right := IdKeyPrefix + x, y + "\"}";
    forall i | 0 <= i < |left| ensures left[i] != '\'' {
      if i < |IdKeyPrefix| {
        assert left[i] == IdKeyPrefix[i];
      } else {
        assert left[i] == x[i - |IdKeyPrefix|];
      }
    }
    assert right[|y|] == '"' && right[|y| + 1] == '}';
    assert IdKeyPrefix + x + "'" + y + "\"}" == left + "'" + right;
    assert IdKeyPrefix + x + "\"" + y + "\"}" == left + "\"" + right;
    SwapOneQuote(left, right);
  }

  /** The rescue reads `x` from `{"id": "x"y"}`: the group stops at the first quote. */
  lemma CompositeKeyRescue(x: string, y: string)
    requires '"' !in x
    ensures Search(IdKeyPrefix + x + "\"" + y + "\"}") == Some(x)
  {
    var s := IdKeyPrefix + x + "\"" + y + "\"}";
    assert s[1..5] == IdKeyPrefix[1..5];
    assert s[8..8 + |x|] == x;
    assert s[8 + |x|] == '"';
    assert PatternParts(s, 1, 5, 7, x);
    MatchAtComplete(s, 1, x);
    assert s[0] == '{' && MatchAt(s, 0).None?;
    assert SearchFrom(s, 0) == SearchFrom(s, 1) == MatchAt(s, 1);
  }

  /** A text without the letter d has no `"id"` fragment. */
  lemma NoIdFragment(s: string)
    requires 'd' !in s
    ensures Search(s).None?
  {
    SearchSpec(s);
    forall k | 0 <= k <= |s| ensures MatchAt(s, k).None? {
      if k + 4 <= |s| {
        assert s[k + 2] != 'd';
        assert s[k..k + 4][2] == s[k + 2];
      }
    }
  }

  /**
   * The lookup with the apostrophe rewrite as a fallback only: a row key is first read as the
   * extended JSON it is, and only a key that does not parse goes through the chain as written.
   * It differs from `QueryFor` only on keys that contain an apostrophe.
   */
  function QueryForRowKey(c: Codec, token: string): Query
  {
    match c.loads(token)
    case Some(v) => if HasIdField(v) then IdFieldEquals(v.fields["id"]) else IdEquals(v)
    case None => QueryFor(c, token)
  }

  /** On a key without an apostrophe the corrected lookup is the lookup as written. */
  lemma QueryForRowKeyAgrees(c: Codec, token: string)
    requires '\'' !in token
    ensures QueryForRowKey(c, token) == QueryFor(c, token)
  {
    assert SwapQuotes(token) == token;
  }

  /** With the corrected lookup the row key of every document resolves to a query that finds it, apostrophes or not. */
  lemma RowKeyAlwaysResolves(c: Codec, d: Document)
    requires Lawful(c) && PlainKeys(d["_id"])
    ensures QueryForRowKey(c, RowKey(c, d)) ==
              if HasIdField(d["_id"]) then IdFieldEquals(d["_id"].fields["id"]) else IdEquals(d["_id"])
    ensures Matches(QueryForRowKey(c, RowKey(c, d)), d)
  {
    assert c.loads(RowKey(c, d)) == Some(d["_id"]);
  }

  /** A document whose composite identifier is `{"id": "d1", "type": kind}`. */
  function SensorLike(kind: string): (d: Document)
    ensures HasIdField(d["_id"]) && d["_id"].fields["id"] == Str("d1")
  {
    map["_id" := Map(map["id" := Str("d1"), "type" := Str(kind)])]
  }

  /** A sensor-like identifier reads back as itself when its kind has no apostrophe. */
  lemma SensorLikePortable(kind: string)
    requires '\'' !in kind
    ensures Portable(SensorLike(kind)["_id"])
  {
    var fields := SensorLike(kind)["_id"].fields;
    forall k | k in fields ensures (k == [] || k[0] != '$') && '\'' !in k && PlainKeys(fields[k]) && QuoteFree(fields[k]) {
      assert k == "id" || k == "type";
    }
  }

  /**
   * Identifiers that differ only outside their `id` part are distinct, yet the key of either
   * one selects both documents.
   */
  lemma CompositeKeyCanSelectTwo(c: Codec)
    requires Lawful(c)
    ensures UniqueIds([SensorLike("Sensor"), SensorLike("Room")])
    ensures Select([SensorLike("Sensor"), SensorLike("Room")], QueryFor(c, RowKey(c, SensorLike("Sensor"))))
              == [SensorLike("Sensor"), SensorLike("Room")]
  {
    var a, b := SensorLike("Sensor"), SensorLike("Room");
    assert a["_id"].fields["type"] != b["_id"].fields["type"];
    SensorLikePortable("Sensor");
    RowKeyResolves(c, a);
    var q := IdFieldEquals(Str("d1"));
    assert QueryFor(c, RowKey(c, a)) == q;
    assert Matches(q, a) && Matches(q, b);
    assert Select([b], q) == [b] + Select([], q) by {
      assert [b][1..] == [];
    }
    assert Select([a, b], q) == [a] + Select([b], q) by {
      assert [a, b][1..] == [b];
    }
  }
}

=== FILE: idpattern.dfy ===
/**
 * The regular expression `"id"\s*:\s*"([^"]*)"` that rescues an `id` from an identifier text
 * the extended-JSON parser rejects, written out as a scan. Both repetitions are greedy and the
 * character after each one is outside the repeated class, so the pattern matches at a position
 * in at most one way and never needs to backtrack.
 */
module IdPattern {
  import opened Wrappers
  import opened Text

  /** `\s*` from position i: the first position at or after i that is not whitespace. */
  function SkipSpaces(s: string, i: nat): (j: nat)
    requires i <= |s|
    ensures i <= j <= |s|
    decreases |s| - i
  {
    if i < |s| && IsSpace(s[i]) then SkipSpaces(s, i + 1) else i
  }

  /** `\s*` consumes whitespace only, and stops at the end or at a character that is not whitespace. */
  lemma {:induction false} SkipSpacesSpec(s: string, i: nat)
    requires i <= |s|
    ensures forall k :: i <= k < SkipSpaces(s, i) ==> IsSpace(s[k])
    ensures SkipSpaces(s, i) == |s| || !IsSpace(s[SkipSpaces(s, i)])
    decreases |s| - i
  {
    if i < |s| && IsSpace(s[i]) {
      SkipSpacesSpec(s, i + 1);
    }
  }

  /** `[^"]*` from position i: the first `"` at or after i, or the end of the text. */
  function NextQuote(s: string, i: nat): (j: nat)
    requires i <= |s|
    ensures i <= j <= |s|
    decreases |s| - i
  {
    if i < |s| && s[i] != '"' then NextQuote(s, i + 1) else i
  }

  /** `[^"]*` consumes no quote, and stops at the end or at a quote. */
  lemma {:induction false} NextQuoteSpec(s: string, i: nat)
    requires i <= |s|
    ensures forall k :: i <= k < NextQuote(s, i) ==> s[k] != '"'
    ensures NextQuote(s, i) == |s| || s[NextQuote(s, i)] == '"'
    decreases |s| - i
  {
    if i < |s| && s[i] != '"' {
      NextQuoteSpec(s, i + 1);
    }
  }

  /** The captured group when the pattern matches starting exactly at position i. */
  function MatchAt(s: string, i: nat): (r: Option<string>)
    requires i <= |s|
    ensures r.Some? ==> '"' !in r.value
    ensures r.Some? ==> i + 4 <= |s| && s[i..i + 4] == "\"id\""
  {
    if i + 4 <= |s| && s[i..i + 4] == "\"id\"" then
      var j := SkipSpaces(s, i + 4);
      if j < |s| && s[j] == ':' then
        var k := SkipSpaces(s, j + 1);
        if k < |s| && s[k] == '"' then
          var e := NextQuote(s, k + 1);
          NextQuoteSpec(s, k + 1);
          if e < |s| then Some(s[k + 1..e])
          else None
        else None
      else None
    else None
  }

  /**
   * The pattern `"id"\s*:\s*"([^"]*)"` laid out at position i with group g: `"id"` at i, whitespace
   * up to the colon at j, whitespace up to the opening quote at k, then g, which holds no quote,
   * and the closing quote right after it.
   */
  predicate PatternParts(s: string, i: nat, j: nat, k: nat, g: string)
  {
    && i + 4 <= j < k && k + |g| + 1 < |s|
    && s[i..i + 4] == "\"id\""
    && (forall m :: i + 4 <= m < j ==> IsSpace(s[m])) && s[j] == ':'
    && (forall m :: j + 1 <= m < k ==> IsSpace(s[m])) && s[k] == '"'
    && s[k + 1..k + 1 + |g|] == g && '"' !in g && s[k + 1 + |g|] == '"'
  }

  /** The pattern matches at position i with group g. */
  ghost predicate PatternAt(s: string, i: nat, g: string)
  {
    exists j: nat, k: nat :: PatternParts(s, i, j, k, g)
  }

  /** `\s*` over a run of whitespace stops at the first character after it that is not whitespace. */
  lemma {:induction false} SkipSpacesStops(s: string, i: nat, j: nat)
    requires i <= j < |s| && !IsSpace(s[j])
    requires forall m :: i <= m < j ==> IsSpace(s[m])
    ensures SkipSpaces(s, i) == j
    decreases j - i
  {
    if i < j {
      SkipSpacesStops(s, i + 1, j);
    }
  }

  /** `[^"]*` over a quote-free run stops at the quote after it. */
  lemma {:induction false} NextQuoteStops(s: string, i: nat, e: nat)
    requires i <= e < |s| && s[e] == '"'
    requires forall m :: i <= m < e ==> s[m] != '"'
    ensures NextQuote(s, i) == e
    decreases e - i
  {
    if i < e {
      NextQuoteStops(s, i + 1, e);
    }
  }

  /** The pieces the scan checks, with the group running from after the opening quote to the closing one. */
  lemma PartsHold(s: string, i: nat, j: nat, k: nat, e: nat)
    requires i + 4 <= j < k < e < |s| && s[i..i + 4] == "\"id\""
    requires (forall m :: i + 4 <= m < j ==> IsSpace(s[m])) && s[j] == ':'
    requires (forall m :: j + 1 <= m < k ==> IsSpace(s[m])) && s[k] == '"'
    requires (forall m :: k + 1 <= m < e ==> s[m] != '"') && s[e] == '"'
    ensures PatternParts(s, i, j, k, s[k + 1..e])
  {
    var g := s[k + 1..e];
    forall m | 0 <= m < |g| ensures g[m] != '"' {
      assert g[m] == s[k + 1 + m];
    }
  }

  /** A match found by the scan is the pattern laid out at i. */
  lemma MatchAtSound(s: string, i: nat, g: string)
    requires i <= |s| && MatchAt(s, i) == Some(g)
    ensures PatternAt(s, i, g)
  {
    var j := SkipSpaces(s, i + 4);
    assert j < |s| && s[j] == ':';
    var k := SkipSpaces(s, j + 1);
    assert k < |s| && s[k] == '"';
    var e := NextQuote(s, k + 1);
    assert e < |s| && g == s[k + 1..e];
    SkipSpacesSpec(s, i + 4);
    SkipSpacesSpec(s, j + 1);
    NextQuoteSpec(s, k + 1);
    PartsHold(s, i, j, k, e);
  }

  /** Wherever the pattern is laid out, the scan finds it, with the same group. */
  lemma MatchAtComplete(s: string, i: nat, g: string)
    requires i <= |s| && PatternAt(s, i, g)
    ensures MatchAt(s, i) == Some(g)
  {
    var j: nat, k: nat :| PatternParts(s, i, j, k, g);
    var e := k + 1 + |g|;
    SkipSpacesStops(s, i + 4, j);
    SkipSpacesStops(s, j + 1, k);
    forall m | k + 1 <= m < e ensures s[m] != '"' {
      assert s[m] == s[k + 1..e][m - k - 1];
    }
    NextQuoteStops(s, k + 1, e);
  }

  /** The scan matches at i with group g exactly when the pattern is laid out there with group g. */
  lemma MatchAtSpec(s: string, i: nat, g: string)
    requires i <= |s|
    ensures MatchAt(s, i) == Some(g) <==> PatternAt(s, i, g)
  {
    if MatchAt(s, i) == Some(g) {
      MatchAtSound(s, i, g);
    }
    if PatternAt(s, i, g) {
      MatchAtComplete(s, i, g);
    }
  }

  /** The leftmost match at or after position i. */
  function SearchFrom(s: string, i: nat): (r: Option<string>)
    requires i <= |s|
    ensures r.Some? ==> '"' !in r.value
    decreases |s| - i
  {
    if MatchAt(s, i).Some? then MatchAt(s, i)
    else if i == |s| then None
    else SearchFrom(s, i + 1)
  }

  /** No position from i up to k (exclusive) starts a match. */
  ghost predicate NoMatchBetween(s: string, i: nat, k: nat)
    requires k <= |s| + 1
  {
    forall j :: i <= j < k ==> MatchAt(s, j).None?
  }

  /** The search from i fails exactly when no position from i on matches. */
  lemma {:induction false} SearchFromNone(s: string, i: nat)
    requires i <= |s|
    ensures SearchFrom(s, i).None? <==> NoMatchBetween(s, i, |s| + 1)
    decreases |s| - i
  {
    if MatchAt(s, i).None? && i < |s| {
      SearchFromNone(s, i + 1);
      assert SearchFrom(s, i) == SearchFrom(s, i + 1);
    }
  }

  /** A successful search from i gives the match at the leftmost position from i on that matches. */
  lemma {:induction false} SearchFromLeftmost(s: string, i: nat)
    requires i <= |s| && SearchFrom(s, i).Some?
    ensures exists k :: i <= k <= |s| && MatchAt(s, k) == SearchFrom(s, i) && NoMatchBetween(s, i, k)
    decreases |s| - i
  {
    if MatchAt(s, i).Some? {
      assert MatchAt(s, i) == SearchFrom(s, i) && NoMatchBetween(s, i, i);
    } else {
      assert SearchFrom(s, i) == SearchFrom(s, i + 1);
      SearchFromLeftmost(s, i + 1);
      var k :| i + 1 <= k <= |s| && MatchAt(s, k) == SearchFrom(s, i) && NoMatchBetween(s, i + 1, k);
      assert NoMatchBetween(s, i, k);
    }
  }

  /** `re.search(r'"id"\s*:\s*"([^"]*)"', s).group(1)`, or `None` when there is no match. */
  function Search(s: string): (r: Option<string>)
    ensures r.Some? ==> '"' !in r.value
  {
    SearchFrom(s, 0)
  }

  /** `re.search` finds nothing exactly when no position matches, and otherwise the leftmost match. */
  lemma SearchSpec(s: string)
    ensures Search(s).None? <==> forall k :: 0 <= k <= |s| ==> MatchAt(s, k).None?
    ensures Search(s).Some? ==> exists k :: 0 <= k <= |s| && MatchAt(s, k) == Search(s)
                                           && forall j :: 0 <= j < k ==> MatchAt(s, j).None?
  {
    SearchFromNone(s, 0);
    if Search(s).Some? {
      SearchFromLeftmost(s, 0);
    }
  }

  /** The rescue on a Python-style composite identifier, once its apostrophes became double quotes. */
  lemma RescueExample()
    ensures Search("{\"id\": \"d1\"}") == Some("d1")
  {
    var s := "{\"id\": \"d1\"}";
    assert s[1..5] == "\"id\"";
    assert SkipSpaces(s, 5) == 5;
    assert SkipSpaces(s, 6) == 7;
    assert NextQuote(s, 8) == 10;
    assert s[8..10] == "d1";
    assert MatchAt(s, 1) == Some("d1");
    assert SearchFrom(s, 1) == Some("d1");
  }
}

=== FILE: navigation.dfy ===
/** The database list of the navigation panel. */
module Navigation {
  import opened Text
  import opened Table

  /** Databases the panel never lists. */
  const SystemDatabases: set<string> := {"admin", "local", "config"}

  /** The names in order, without the system databases. */
  function DropSystem(names: seq<string>): (r: seq<string>)
    ensures |r| <= |names|
  {
    if names == [] then []
    else (if names[0] in SystemDatabases then [] else [names[0]]) + DropSystem(names[1..])
  }

  /**
   * Dropping keeps exactly the names that are not system databases, each taken from the input, and
   * keeps an ascending list ascending.
   */
  lemma {:induction false} DropSystemSpec(names: seq<string>)
    ensures forall n :: n in DropSystem(names) <==> n in names && n !in SystemDatabases
    ensures Sorted(names) ==> Sorted(DropSystem(names))
  {
    if names != [] {
      var rest := DropSystem(names[1..]);
      DropSystemSpec(names[1..]);
      assert names == [names[0]] + names[1..];
      if Sorted(names) && names[0] !in SystemDatabases {
        forall i | 0 <= i < |rest| ensures StrLe(names[0], rest[i]) {
          assert rest[i] in rest;
          var j :| 0 <= j < |names[1..]| && names[1..][j] == rest[i];
          assert names[j + 1] == rest[i];
        }
      }
    }
  }

  /** `load_dbs`: the server's database names, ascending, without admin, local and config. */
  function ListedDatabases(names: seq<string>): (r: seq<string>)
    ensures Sorted(r)
    ensures forall n :: n in r <==> n in names && n !in SystemDatabases
  {
    var sorted := SortKeys(names);
    SortKeysSorted(names);
    assert forall n :: n in sorted <==> n in names by {
      forall n ensures n in sorted <==> n in names {
        assert n in sorted <==> n in multiset(sorted);
        assert n in names <==> n in multiset(names);
      }
    }
    DropSystemSpec(sorted);
    DropSystem(sorted)
  }
}

=== FILE: paging.dfy ===
/**
 * The fetch parameters of the explorer's grid: the filter typed by the user, the sort column and
 * direction toggled by the headings, and the page number moved by the paging buttons.
 */
module Paging {
  import opened Wrappers
  import opened Text
  import opened Bson
  import opened Store

  /**
   * How the filter text is used: `filter` is the query sent (None: the text is JSON but not an
   * object, the fetch raises and the grid is left as it was); `badJson` reports that the text was
   * not JSON, in which case the empty filter is sent.
   */
  datatype FilterResolution = FilterResolution(filter: Option<map<string, Value>>, badJson: bool)

  function ResolveFilter(c: Codec, text: string): (r: FilterResolution)
    ensures r.badJson ==> r.filter == Some(map[])
  {
    var s := Strip(text);
    if s == [] then FilterResolution(Some(map[]), false)
    else
      match c.jsonLoads(s)
      case None => FilterResolution(Some(map[]), true)
      case Some(v) =>
        if v.Map? then FilterResolution(Some(v.fields), false)
        else if v == Null then FilterResolution(Some(map[]), false)
        else FilterResolution(None, false)
  }

  /**
   * A blank filter is the empty filter; text that is not JSON is reported and the fetch goes on
   * with the empty filter; a JSON object is the filter; JSON `null` is the empty filter; any other
   * JSON value makes the fetch raise.
   */
  lemma ResolveFilterCases(c: Codec, text: string)
    ensures Strip(text) == [] ==> ResolveFilter(c, text) == FilterResolution(Some(map[]), false)
    ensures ResolveFilter(c, text).badJson <==> Strip(text) != [] && c.jsonLoads(Strip(text)).None?
    ensures ResolveFilter(c, text).filter.None? <==>
              Strip(text) != [] && c.jsonLoads(Strip(text)).Some?
              && !c.jsonLoads(Strip(text)).value.Map? && c.jsonLoads(Strip(text)).value != Null
    ensures Strip(text) != [] && c.jsonLoads(Strip(text)).Some? && c.jsonLoads(Strip(text)).value.Map? ==>
              ResolveFilter(c, text).filter == Some(c.jsonLoads(Strip(text)).value.fields)
  {
  }

  /** The sort a fetch applies: only when a non-empty sort column is set. */
  function SortFor(sortColumn: Option<string>, dir: int): (r: Option<(string, int)>)
    ensures r.Some? <==> sortColumn.Some? && sortColumn.value != ""
    ensures r.Some? ==> r.value == (sortColumn.value, dir)
  {
    if sortColumn.Some? && sortColumn.value != "" then Some((sortColumn.value, dir)) else None
  }

  /** The number of documents on the pages before page `page`, with `size` documents a page. */
  function Skipped(page: nat, size: nat): nat
  {
    if page == 0 then 0 else Skipped(page - 1, size) + size
  }

  /** The fetch for page `page` of `size` documents. */
  function RequestFor(f: map<string, Value>, page: nat, size: nat, sortColumn: Option<string>, dir: int): Request
  {
    Request(f, SortFor(sortColumn, dir), Skipped(page, size), size)
  }

  /** The fetch skips `page * size` documents and asks for at most `size`, with the filter and sort given. */
  lemma {:induction false} RequestForSpec(f: map<string, Value>, page: nat, size: nat, sortColumn: Option<string>, dir: int)
    ensures RequestFor(f, page, size, sortColumn, dir).skip == page * size
    ensures RequestFor(f, page, size, sortColumn, dir).limit == size
    ensures RequestFor(f, page, size, sortColumn, dir).filter == f
    ensures RequestFor(f, page, size, sortColumn, dir).sort == SortFor(sortColumn, dir)
  {
    if page > 0 {
      RequestForSpec(f, page - 1, size, sortColumn, dir);
      assert page * size == (page - 1) * size + size;
    }
  }

  /**
   * Paging covers the whole result: the document at position i of the filtered, sorted result is
   * on page i / size, at row i % size, and no page holds more than `size` documents.
   */
  lemma EveryResultOnItsPage(docs: seq<Document>, f: map<string, Value>, sortColumn: Option<string>, dir: int,
                             size: nat, i: nat)
    requires size > 0 && i < |Ordered(docs, f, SortFor(sortColumn, dir))|
    ensures var page := FindPage(docs, RequestFor(f, i / size, size, sortColumn, dir));
            i % size < |page| <= size && page[i % size] == Ordered(docs, f, SortFor(sortColumn, dir))[i]
  {
    RequestForSpec(f, i / size, size, sortColumn, dir);
    PageOfPosition(docs, f, SortFor(sortColumn, dir), size, i);
  }

  /** `toggle_sort(column)`: the same column flips the direction, another column sorts ascending. */
  function Toggled(sortColumn: Option<string>, dir: int, column: string): (r: (Option<string>, int))
    ensures r.0 == Some(column)
    ensures r.1 == 1 || r.1 == -1
    ensures sortColumn == Some(column) && (dir == 1 || dir == -1) ==> r.1 == -dir
    ensures sortColumn != Some(column) ==> r.1 == 1
  {
    if sortColumn == Some(column) then (sortColumn, if dir == 1 then -1 else 1)
    else (Some(column), 1)
  }

  /** Toggling the sort column twice restores its direction; a new column ends up descending. */
  lemma ToggleTwice(sortColumn: Option<string>, dir: int, column: string)
    requires dir == 1 || dir == -1
    ensures var t := Toggled(sortColumn, dir, column);
            var u := Toggled(t.0, t.1, column);
            u.0 == Some(column) && u.1 == (if sortColumn == Some(column) then dir else -1)
  {
  }

  /** `change_page(delta)`: the page moves by `delta` unless that would go below the first page. */
  function PageAfter(page: nat, delta: int): (r: nat)
    ensures page + delta >= 0 ==> r == page + delta
    ensures page + delta < 0 ==> r == page
  {
    if page + delta >= 0 then page + delta else page
  }

  /** Forward then back returns to the same page; back from the first page stays there. */
  lemma PagingReturns(page: nat)
    ensures PageAfter(PageAfter(page, 1), -1) == page
    ensures PageAfter(0, -1) == 0
  {
  }
}

=== FILE: query.dfy ===
/**
 * Query predicates and how a MongoDB collection evaluates them: the two identifier queries the
 * explorer builds, and the user's filter for a page fetch.
 */
module Query {
  import opened Wrappers
  import opened Bson

  /** `{"_id": v}` and `{"_id.id": v}`. */
  datatype Query = IdEquals(value: Value) | IdFieldEquals(value: Value)

  /** MongoDB equality on a field: the same value, or an array holding it. */
  predicate Holds(x: Value, v: Value)
  {
    x == v || (x.Arr? && v in x.items)
  }

  /** The identifier is a composite one: an object with an `id` field. */
  predicate HasIdField(id: Value)
  {
    id.Map? && "id" in id.fields
  }

  /**
   * Whether document `d` satisfies query `q`. An `_id` is never an array, so `Holds` is plain
   * equality there. As for any field, `{"_id.id": null}` also matches a document without `_id.id`.
   */
  predicate Matches(q: Query, d: Document)
  {
    match q
    case IdEquals(v) => d["_id"] == v
    case IdFieldEquals(v) => if HasIdField(d["_id"]) then Holds(d["_id"].fields["id"], v) else v == Null
  }

  /** The documents of a collection that satisfy `q`, in stored order. */
  function Select(docs: seq<Document>, q: Query): (r: seq<Document>)
    ensures |r| <= |docs|
    ensures forall d :: d in r <==> d in docs && Matches(q, d)
  {
    if docs == [] then []
    else (if Matches(q, docs[0]) then [docs[0]] else []) + Select(docs[1..], q)
  }

  /** The position of the first document satisfying `q`: the one `find_one`, `update_one` and `delete_one` act on. */
  function FirstIndex(docs: seq<Document>, q: Query): (r: Option<nat>)
    ensures r.Some? ==> r.value < |docs| && Matches(q, docs[r.value])
                        && forall j :: 0 <= j < r.value ==> !Matches(q, docs[j])
    ensures r.None? <==> forall j :: 0 <= j < |docs| ==> !Matches(q, docs[j])
  {
    if docs == [] then None
    else if Matches(q, docs[0]) then Some(0)
    else match FirstIndex(docs[1..], q)
      case None => None
      case Some(i) => Some(i + 1)
  }

  /** No two documents of the collection share an `_id` (MongoDB's unique index on `_id`). */
  ghost predicate UniqueIds(docs: seq<Document>)
  {
    forall i, j :: 0 <= i < j < |docs| ==> docs[i]["_id"] != docs[j]["_id"]
  }

  /**
   * A filter document of top-level field equalities, as `find` applies it: every listed field
   * holds the given value, and a `null` also matches a missing field.
   */
  predicate FilterMatches(f: map<string, Value>, d: Document)
  {
    forall k :: k in f ==> if k in d then Holds(d[k], f[k]) else f[k] == Null
  }

  /** Identifiers stay unique in any suffix of the collection. */
  lemma UniqueIdsTail(docs: seq<Document>)
    requires docs != [] && UniqueIds(docs)
    ensures UniqueIds(docs[1..])
  {
    var rest := docs[1..];
    forall i, j | 0 <= i < j < |rest| ensures rest[i]["_id"] != rest[j]["_id"] {
      assert rest[i] == docs[i + 1] && rest[j] == docs[j + 1];
    }
  }

  /** A query that no document satisfies selects nothing. */
  lemma {:induction false} SelectNone(docs: seq<Document>, q: Query)
    requires forall j :: 0 <= j < |docs| ==> !Matches(q, docs[j])
    ensures Select(docs, q) == []
  {
    if docs != [] {
      SelectNone(docs[1..], q);
    }
  }

  /** An `_id` query selects at most one document of a collection with unique identifiers. */
  lemma {:induction false} IdEqualsSelectsAtMostOne(docs: seq<Document>, v: Value)
    requires UniqueIds(docs)
    ensures |Select(docs, IdEquals(v))| <= 1
  {
    if docs != [] {
      var rest := docs[1..];
      UniqueIdsTail(docs);
      IdEqualsSelectsAtMostOne(rest, v);
      if docs[0]["_id"] == v {
        forall j | 0 <= j < |rest| ensures !Matches(IdEquals(v), rest[j]) {
          assert rest[j] == docs[j + 1];
        }
        SelectNone(rest, IdEquals(v));
      }
    }
  }
}

=== FILE: store.dfy ===
/**
 * The document store as the explorer uses it, held in memory: `find` with a filter, an
 * optional one-column sort, `skip` and `limit`; `find_one`; and the three single-document
 * writes `update_one` with `$set`, `replace_one` and `delete_one`.
 */
module Store {
  import opened Wrappers
  import opened Bson
  import opened Query

  /** The value a document sorts by; a missing field sorts as `null`. */
  function SortKey(d: Document, column: string): Value
  {
    if column in d then d[column] else Null
  }

  /** `a` may come before `b` in a sort on `column`, ascending for direction 1, descending otherwise. */
  predicate InOrder(a: Document, b: Document, column: string, dir: int)
  {
    if dir == 1 then ValueLe(SortKey(a, column), SortKey(b, column))
    else ValueLe(SortKey(b, column), SortKey(a, column))
  }

  lemma InOrderTotal(a: Document, b: Document, column: string, dir: int)
    ensures InOrder(a, b, column, dir) || InOrder(b, a, column, dir)
  {
    ValueLeTotal(SortKey(a, column), SortKey(b, column));
  }

  lemma InOrderTransitive(a: Document, b: Document, c: Document, column: string, dir: int)
    requires InOrder(a, b, column, dir) && InOrder(b, c, column, dir)
    ensures InOrder(a, c, column, dir)
  {
    if dir == 1 {
      ValueLeTransitive(SortKey(a, column), SortKey(b, column), SortKey(c, column));
    } else {
      ValueLeTransitive(SortKey(c, column), SortKey(b, column), SortKey(a, column));
    }
  }

  ghost predicate SortedBy(s: seq<Document>, column: string, dir: int)
  {
    forall i, j :: 0 <= i < j < |s| ==> InOrder(s[i], s[j], column, dir)
  }

  /** Inserts `d` before the first document it may precede. */
  function Insert(d: Document, s: seq<Document>, column: string, dir: int): (r: seq<Document>)
    ensures multiset(r) == multiset(s) + multiset{d}
  {
    if s == [] || InOrder(d, s[0], column, dir) then [d] + s
    else
      assert s == [s[0]] + s[1..];
      [s[0]] + Insert(d, s[1..], column, dir)
  }

  /** Inserting into a sorted sequence keeps it sorted. */
  lemma {:induction false} InsertSorted(d: Document, s: seq<Document>, column: string, dir: int)
    requires SortedBy(s, column, dir)
    ensures SortedBy(Insert(d, s, column, dir), column, dir)
  {
    if s == [] || InOrder(d, s[0], column, dir) {
      forall j | 0 <= j < |s| ensures InOrder(d, s[j], column, dir) {
        if j > 0 {
          InOrderTransitive(d, s[0], s[j], column, dir);
        }
      }
    } else {
      var t := Insert(d, s[1..], column, dir);
      InsertSorted(d, s[1..], column, dir);
      assert s == [s[0]] + s[1..];
      InOrderTotal(d, s[0], column, dir);
      forall j | 0 <= j < |t| ensures InOrder(s[0], t[j], column, dir) {
        assert t[j] in multiset(t);
        if t[j] != d {
          assert t[j] in multiset(s[1..]);
          var k :| 0 <= k < |s[1..]| && s[1..][k] == t[j];
          assert s[k + 1] == t[j];
        }
      }
      assert Insert(d, s, column, dir) == [s[0]] + t;
    }
  }

  /** `cursor.sort(column, dir)`: a stable insertion sort of the documents. */
  function SortBy(s: seq<Document>, column: string, dir: int): (r: seq<Document>)
    ensures multiset(r) == multiset(s)
  {
    if s == [] then []
    else
      assert s == [s[0]] + s[1..];
      Insert(s[0], SortBy(s[1..], column, dir), column, dir)
  }

  /** The sort's result is in order. */
  lemma {:induction false} SortBySorted(s: seq<Document>, column: string, dir: int)
    ensures SortedBy(SortBy(s, column, dir), column, dir)
  {
    if s != [] {
      SortBySorted(s[1..], column, dir);
      InsertSorted(s[0], SortBy(s[1..], column, dir), column, dir);
    }
  }

  /** The documents that satisfy the filter, in stored order. */
  function FilterDocs(docs: seq<Document>, f: map<string, Value>): (r: seq<Document>)
    ensures |r| <= |docs|
  {
    if docs == [] then []
    else (if FilterMatches(f, docs[0]) then [docs[0]] else []) + FilterDocs(docs[1..], f)
  }

  /** The filter keeps exactly the stored documents that satisfy it. */
  lemma {:induction false} FilterDocsMembers(docs: seq<Document>, f: map<string, Value>)
    ensures forall d :: d in FilterDocs(docs, f) <==> d in docs && FilterMatches(f, d)
  {
    if docs != [] {
      FilterDocsMembers(docs[1..], f);
      assert docs == [docs[0]] + docs[1..];
    }
  }

  /** The result before `skip`/`limit`: the matching documents, sorted when a sort is given. */
  function Ordered(docs: seq<Document>, f: map<string, Value>, sort: Option<(string, int)>): seq<Document>
  {
    match sort
    case None => FilterDocs(docs, f)
    case Some((column, dir)) => SortBy(FilterDocs(docs, f), column, dir)
  }

  /** The ordered result holds exactly the matching documents, and is sorted when a sort is given. */
  lemma OrderedSpec(docs: seq<Document>, f: map<string, Value>, sort: Option<(string, int)>)
    ensures multiset(Ordered(docs, f, sort)) == multiset(FilterDocs(docs, f))
    ensures sort.Some? ==> SortedBy(Ordered(docs, f, sort), sort.value.0, sort.value.1)
  {
    if sort.Some? {
      SortBySorted(FilterDocs(docs, f), sort.value.0, sort.value.1);
    }
  }

  /** `skip(n).limit(m)`: at most m documents starting at position n; a limit of 0 means no limit. */
  function Window(s: seq<Document>, skip: nat, limit: nat): (r: seq<Document>)
    ensures |r| == if skip >= |s| then 0 else if limit == 0 || skip + limit > |s| then |s| - skip else limit
  {
    if skip >= |s| then []
    else if limit == 0 || skip + limit > |s| then s[skip..]
    else s[skip..skip + limit]
  }

  /** The window is the run of documents starting at `skip`. */
  lemma WindowSpec(s: seq<Document>, skip: nat, limit: nat)
    ensures forall i :: 0 <= i < |Window(s, skip, limit)| ==> Window(s, skip, limit)[i] == s[skip + i]
  {
  }

  lemma WindowWithin(s: seq<Document>, skip: nat, limit: nat)
    ensures forall d :: d in Window(s, skip, limit) ==> d in s
  {
    var r := Window(s, skip, limit);
    WindowSpec(s, skip, limit);
    forall d | d in r ensures d in s {
      var i :| 0 <= i < |r| && r[i] == d;
      assert s[skip + i] == d;
    }
  }

  lemma OrderedWithin(docs: seq<Document>, f: map<string, Value>, sort: Option<(string, int)>)
    ensures forall d :: d in Ordered(docs, f, sort) ==> d in docs && FilterMatches(f, d)
  {
    OrderedSpec(docs, f, sort);
    FilterDocsMembers(docs, f);
    forall d | d in Ordered(docs, f, sort) ensures d in FilterDocs(docs, f) {
      assert d in multiset(Ordered(docs, f, sort));
    }
  }

  /** The arguments of one `find(...).skip(...).limit(...)[.sort(...)]` call. */
  datatype Request = Request(filter: map<string, Value>, sort: Option<(string, int)>, skip: nat, limit: nat)

  /** The documents one `find` call returns. */
  function FindPage(docs: seq<Document>, req: Request): seq<Document>
  {
    Window(Ordered(docs, req.filter, req.sort), req.skip, req.limit)
  }

  /**
   * A page holds only stored documents that satisfy the filter, at most `limit` of them when a
   * limit is given, in sort order when a sort is given.
   */
  lemma FindPageSpec(docs: seq<Document>, req: Request)
    ensures forall d :: d in FindPage(docs, req) ==> d in docs && FilterMatches(req.filter, d)
    ensures req.limit > 0 ==> |FindPage(docs, req)| <= req.limit
    ensures req.sort.Some? ==> SortedBy(FindPage(docs, req), req.sort.value.0, req.sort.value.1)
  {
    var s := Ordered(docs, req.filter, req.sort);
    WindowWithin(s, req.skip, req.limit);
    OrderedWithin(docs, req.filter, req.sort);
    OrderedSpec(docs, req.filter, req.sort);
  }

  lemma DivMod(i: nat, size: nat)
    requires size > 0
    ensures i == (i / size) * size + i % size && i % size < size
  {
  }

  /**
   * Pages of `size` documents partition the result: the document at position i of the ordered
   * result is on page i / size, at row i % size, and no page holds more than `size` documents.
   */
  lemma PageOfPosition(docs: seq<Document>, f: map<string, Value>, sort: Option<(string, int)>, size: nat, i: nat)
    requires size > 0 && i < |Ordered(docs, f, sort)|
    ensures var page := FindPage(docs, Request(f, sort, (i / size) * size, size));
            i % size < |page| <= size && page[i % size] == Ordered(docs, f, sort)[i]
  {
    var s := Ordered(docs, f, sort);
    var q, r := i / size, i % size;
    DivMod(i, size);
    var skip := q * size;
    var page := Window(s, skip, size);
    WindowSpec(s, skip, size);
    assert skip + r == i < |s|;
    assert page == FindPage(docs, Request(f, sort, skip, size));
  }

  /** A page past the end of the result is empty. */
  lemma PagePastTheEnd(docs: seq<Document>, f: map<string, Value>, sort: Option<(string, int)>, skip: nat, size: nat)
    requires skip >= |Ordered(docs, f, sort)|
    ensures FindPage(docs, Request(f, sort, skip, size)) == []
  {
  }

  /** A reading document `{"_id": id, "value": value}`. */
  function Reading(id: string, value: int): (d: Document)
    ensures d["_id"] == Str(id) && SortKey(d, "value") == Int(value)
  {
    map["_id" := Str(id), "value" := Int(value)]
  }

  /**
   * Sorting applies to the whole result before paging: with readings 10 and 20 sorted
   * descending on "value" and pages of one document, page 0 holds 20 and page 1 holds 10.
   */
  lemma SortedPagingScenario()
    ensures FindPage([Reading("d1", 10), Reading("d2", 20)], Request(map[], Some(("value", -1)), 0, 1)) == [Reading("d2", 20)]
    ensures FindPage([Reading("d1", 10), Reading("d2", 20)], Request(map[], Some(("value", -1)), 1, 1)) == [Reading("d1", 10)]
  {
    var a, b := Reading("d1", 10), Reading("d2", 20);
    assert FilterMatches(map[], a) && FilterMatches(map[], b);
    assert [a, b][1..] == [b];
    assert FilterDocs([b], map[]) == [b];
    assert FilterDocs([a, b], map[]) == [a, b];
    assert SortBy([b], "value", -1) == [b];
    assert !InOrder(a, b, "value", -1);
    assert Insert(a, [b], "value", -1) == [b, a];
    assert Ordered([a, b], map[], Some(("value", -1))) == [b, a];
  }

  /** The result of a write: the collection afterwards and the count the driver reports. */
  datatype Write = Write(docs: seq<Document>, count: nat)

  /**
   * `update_one(q, {"$set": {field: v}})`: sets the field of the first matching document; the
   * count is the modified count, 0 when nothing matched or the value was already there.
   */
  function SetFieldOne(docs: seq<Document>, q: Query, field: string, v: Value): (w: Write)
    requires field != "_id"
    ensures |w.docs| == |docs| && w.count <= 1
    ensures forall j :: 0 <= j < |docs| ==> w.docs[j]["_id"] == docs[j]["_id"]
    ensures w.count == 0 ==> w.docs == docs
    ensures w.count == 1 <==> (exists j :: 0 <= j < |docs| && Matches(q, docs[j]))
                              && Get(docs[FirstIndex(docs, q).value], field) != Some(v)
    ensures FirstIndex(docs, q).Some? ==>
              var i := FirstIndex(docs, q).value;
              w.docs[i] == docs[i][field := v] && forall j :: 0 <= j < |docs| && j != i ==> w.docs[j] == docs[j]
  {
    match FirstIndex(docs, q)
    case None => Write(docs, 0)
    case Some(i) =>
      var d: Document := docs[i][field := v];
      if d == docs[i] then
        assert docs[i := d] == docs;
        Write(docs, 0)
      else Write(docs[i := d], 1)
  }

  /**
   * `replace_one({"_id": id}, body)`: the first document with that identifier becomes `body`
   * under the same identifier; fields absent from `body` are gone. The count is the matched count.
   */
  function ReplaceById(docs: seq<Document>, id: Value, body: map<string, Value>): (w: Write)
    requires "_id" !in body && !id.Arr?
    ensures |w.docs| == |docs| && w.count <= 1
    ensures forall j :: 0 <= j < |docs| ==> w.docs[j]["_id"] == docs[j]["_id"]
    ensures w.count == 1 <==> exists j :: 0 <= j < |docs| && docs[j]["_id"] == id
    ensures w.count == 0 ==> w.docs == docs
    ensures FirstIndex(docs, IdEquals(id)).Some? ==>
              var i := FirstIndex(docs, IdEquals(id)).value;
              w.docs[i].Keys == body.Keys + {"_id"}
              && (forall k :: k in body ==> w.docs[i][k] == body[k])
              && forall j :: 0 <= j < |docs| && j != i ==> w.docs[j] == docs[j]
  {
    match FirstIndex(docs, IdEquals(id))
    case None => Write(docs, 0)
    case Some(i) =>
      var d: Document := body["_id" := id];
      Write(docs[i := d], 1)
  }

  /** `delete_one(q)`: removes the first matching document. The count is the deleted count. */
  function DeleteFirst(docs: seq<Document>, q: Query): (w: Write)
    ensures w.count <= 1 && |w.docs| == |docs| - w.count
    ensures w.count == 1 <==> exists j :: 0 <= j < |docs| && Matches(q, docs[j])
    ensures w.count == 0 ==> w.docs == docs
    ensures FirstIndex(docs, q).Some? ==>
              var i := FirstIndex(docs, q).value;
              w.docs == docs[..i] + docs[i + 1..] && multiset(w.docs) + multiset{docs[i]} == multiset(docs)
  {
    match FirstIndex(docs, q)
    case None => Write(docs, 0)
    case Some(i) =>
      assert docs == docs[..i] + [docs[i]] + docs[i + 1..];
      Write(docs[..i] + docs[i + 1..], 1)
  }

  /** Writes that keep every identifier in place keep the identifiers unique. */
  lemma SameIdsStayUnique(before: seq<Document>, after: seq<Document>)
    requires UniqueIds(before) && |after| == |before|
    requires forall j :: 0 <= j < |before| ==> after[j]["_id"] == before[j]["_id"]
    ensures UniqueIds(after)
  {
  }

  /** Deleting a document keeps the remaining identifiers unique, and with `{"_id": v}` no document with `v` remains. */
  lemma {:induction false} DeleteKeepsIdsUnique(docs: seq<Document>, q: Query)
    requires UniqueIds(docs)
    ensures UniqueIds(DeleteFirst(docs, q).docs)
    ensures q.IdEquals? ==> forall d :: d in DeleteFirst(docs, q).docs ==> d["_id"] != q.value
  {
    var w := DeleteFirst(docs, q);
    if FirstIndex(docs, q).Some? {
      var i := FirstIndex(docs, q).value;
      assert forall j :: 0 <= j < |w.docs| ==> w.docs[j] == docs[if j < i then j else j + 1];
      if q.IdEquals? {
        forall d | d in w.docs ensures d["_id"] != q.value {
          var j :| 0 <= j < |w.docs| && w.docs[j] == d;
          assert w.docs[j] == docs[if j < i then j else j + 1];
        }
      }
    } else if q.IdEquals? {
      forall d | d in w.docs ensures d["_id"] != q.value {
        var j :| 0 <= j < |docs| && docs[j] == d;
        assert !Matches(q, docs[j]);
      }
    }
  }

  /** A MongoDB server: collections keyed by database and collection name. */
  class Server {
    var collections: map<(string, string), seq<Document>>

    /** Every collection keeps its `_id` values unique. */
    ghost predicate Valid()
      reads this
    {
      forall key :: key in collections ==> UniqueIds(collections[key])
    }

    /** `client[db][coll]`: a collection that does not exist reads as empty. */
    function Docs(db: string, coll: string): seq<Document>
      reads this
    {
      if (db, coll) in collections then collections[(db, coll)] else []
    }

    constructor (initial: map<(string, string), seq<Document>>)
      ensures collections == initial
    {
      collections := initial;
    }

    method Find(db: string, coll: string, req: Request) returns (page: seq<Document>)
      ensures page == FindPage(Docs(db, coll), req)
    {
      page := FindPage(Docs(db, coll), req);
    }

    method FindOne(db: string, coll: string, q: Query) returns (r: Option<Document>)
      ensures r.None? <==> forall d :: d in Docs(db, coll) ==> !Matches(q, d)
      ensures r.Some? ==> Matches(q, r.value) && r.value == Docs(db, coll)[FirstIndex(Docs(db, coll), q).value]
    {
      var docs := Docs(db, coll);
      match FirstIndex(docs, q)
      case None =>
        r := None;
      case Some(i) =>
        r := Some(docs[i]);
    }

    method UpdateOne(db: string, coll: string, q: Query, field: string, v: Value) returns (modified: nat)
      requires field != "_id"
      modifies this
      ensures var w := SetFieldOne(old(Docs(db, coll)), q, field, v);
              modified == w.count
              && collections == if w.count == 0 then old(collections) else old(collections)[(db, coll) := w.docs]
      ensures old(Valid()) ==> Valid()
    {
      var w := SetFieldOne(Docs(db, coll), q, field, v);
      if w.count != 0 {
        if Valid() {
          SameIdsStayUnique(Docs(db, coll), w.docs);
        }
        collections := collections[(db, coll) := w.docs];
      }
      modified := w.count;
    }

    method ReplaceOne(db: string, coll: string, id: Value, body: map<string, Value>) returns (matched: nat)
      requires "_id" !in body && !id.Arr?
      modifies this
      ensures var w := ReplaceById(old(Docs(db, coll)), id, body);
              matched == w.count
              && collections == if w.count == 0 then old(collections) else old(collections)[(db, coll) := w.docs]
      ensures old(Valid()) ==> Valid()
    {
      var w := ReplaceById(Docs(db, coll), id, body);
      if w.count != 0 {
        if Valid() {
          SameIdsStayUnique(Docs(db, coll), w.docs);
        }
        collections := collections[(db, coll) := w.docs];
      }
      matched := w.count;
    }

    method DeleteOne(db: string, coll: string, q: Query) returns (deleted: nat)
      modifies this
      ensures var w := DeleteFirst(old(Docs(db, coll)), q);
              deleted == w.count
              && collections == if w.count == 0 then old(collections) else old(collections)[(db, coll) := w.docs]
      ensures old(Valid()) ==> Valid()
    {
      var w := DeleteFirst(Docs(db, coll), q);
      if w.count != 0 {
        if Valid() && (db, coll) in collections {
          DeleteKeepsIdsUnique(Docs(db, coll), q);
        }
        collections := collections[(db, coll) := w.docs];
      }
      deleted := w.count;
    }
  }
}

=== FILE: table.dfy ===
/**
 * The grid for one page of documents (`load_documents`): the column list, the heading texts
 * with the sort arrow, the text of each cell and the row key of each document.
 */
module Table {
  import opened Wrappers
  import opened Text
  import opened Bson
  import opened Identity

  /** Longest cell text before the ellipsis. */
  const MaxColumnWidth: nat := 150

  /** The union of the keys of all documents, as `all_keys.update(doc.keys())` accumulates it. */
  function AllKeys(docs: seq<Document>): (r: set<string>)
    ensures docs != [] ==> "_id" in r
  {
    if docs == [] then {}
    else AllKeys(docs[..|docs| - 1]) + docs[|docs| - 1].Keys
  }

  /** A key is in the union exactly when some document on the page has it. */
  lemma {:induction false} AllKeysSpec(docs: seq<Document>)
    ensures forall k :: k in AllKeys(docs) <==> exists d :: d in docs && k in d
  {
    if docs != [] {
      var init := docs[..|docs| - 1];
      AllKeysSpec(init);
      assert docs == init + [docs[|docs| - 1]];
    }
  }

  predicate Sorted(s: seq<string>)
  {
    forall i, j :: 0 <= i < j < |s| ==> StrLe(s[i], s[j])
  }

  predicate StrictlySorted(s: seq<string>)
  {
    forall i, j :: 0 <= i < j < |s| ==> StrLe(s[i], s[j]) && s[i] != s[j]
  }

  lemma MinimumExists(s: set<string>)
    requires s != {}
    ensures exists m :: m in s && forall k :: k in s ==> StrLe(m, k)
    decreases |s|
  {
    var x :| x in s;
    var rest := s - {x};
    StrLeTotal(x, x);
    if rest == {} {
      assert s == {x};
    } else {
      MinimumExists(rest);
      var m :| m in rest && forall k :: k in rest ==> StrLe(m, k);
      StrLeTotal(x, m);
      if StrLe(x, m) {
        forall k | k in s ensures StrLe(x, k) {
          if k != x {
            assert k in rest;
            StrLeTransitive(x, m, k);
          }
        }
      } else {
        forall k | k in s ensures StrLe(m, k) {
          if k != x {
            assert k in rest;
          }
        }
        assert m in s;
      }
    }
  }

  /** The elements of a set in ascending order, each once: what `sorted(...)` returns for a set of keys. */
  ghost function SortedSet(s: set<string>): seq<string>
    decreases |s|
  {
    if s == {} then []
    else
      MinimumExists(s);
      var m :| m in s && forall k :: k in s ==> StrLe(m, k);
      [m] + SortedSet(s - {m})
  }

  /** The sorted list is strictly ascending and holds exactly the elements of the set. */
  lemma {:induction false} SortedSetSpec(s: set<string>)
    ensures StrictlySorted(SortedSet(s))
    ensures forall k :: k in SortedSet(s) <==> k in s
    decreases |s|
  {
    if s != {} {
      var r := SortedSet(s);
      var m := r[0];
      assert m in s && forall k :: k in s ==> StrLe(m, k);
      var t := SortedSet(s - {m});
      assert r == [m] + t;
      SortedSetSpec(s - {m});
      forall j | 0 <= j < |t| ensures StrLe(m, t[j]) && m != t[j] {
        assert t[j] in s - {m};
      }
    }
  }

  /** Two strictly ascending sequences with the same elements are the same sequence. */
  lemma {:induction false} SortedUnique(a: seq<string>, b: seq<string>)
    requires StrictlySorted(a) && StrictlySorted(b)
    requires forall k :: k in a <==> k in b
    ensures a == b
  {
    if a == [] {
      forall k ensures k !in multiset(b) {
        assert k in multiset(b) <==> k in b;
      }
      assert multiset(b) == multiset{};
      assert |b| == |multiset(b)| == 0;
    } else {
      assert a[0] in b && b[0] in a;
      var i :| 0 <= i < |b| && b[i] == a[0];
      var j :| 0 <= j < |a| && a[j] == b[0];
      if j > 0 {
        assert StrLe(a[0], a[j]);
        if i > 0 {
          assert StrLe(b[0], b[i]);
          StrLeAntisymmetric(a[0], b[0]);
        }
      }
      assert a[0] == b[0];
      forall k ensures k in a[1..] <==> k in b[1..] {
        if k in a[1..] {
          var p :| 1 <= p < |a| && a[p] == k;
          assert k != a[0];
          assert k in b;
        }
        if k in b[1..] {
          var p :| 1 <= p < |b| && b[p] == k;
          assert k != b[0];
          assert k in a;
        }
      }
      SortedUnique(a[1..], b[1..]);
      assert a == [a[0]] + a[1..] && b == [b[0]] + b[1..];
    }
  }

  /**
   * The column list of a page: `_id` first, then every other key of any document on the page,
   * ascending and each once. A page without documents has no columns.
   */
  ghost function Columns(docs: seq<Document>): (r: seq<string>)
    ensures docs == [] <==> r == []
  {
    if docs == [] then []
    else ["_id"] + SortedSet(AllKeys(docs) - {"_id"})
  }

  /** `_id` first, then each other key of the page once, ascending; nothing else. */
  lemma ColumnsSpec(docs: seq<Document>)
    ensures docs != [] ==> Columns(docs)[0] == "_id" && "_id" !in Columns(docs)[1..] && StrictlySorted(Columns(docs)[1..])
    ensures forall k :: k in Columns(docs) <==> exists d :: d in docs && k in d
  {
    AllKeysSpec(docs);
    if docs != [] {
      var keys := AllKeys(docs);
      var rest := SortedSet(keys - {"_id"});
      SortedSetSpec(keys - {"_id"});
      var r := Columns(docs);
      assert r == ["_id"] + rest && r[1..] == rest;
      forall k ensures k in r <==> k in keys {
        assert k in r <==> k == "_id" || k in rest;
      }
    }
  }

  /** The columns do not depend on the order of the documents on the page. */
  lemma ColumnsIgnoreOrder(a: seq<Document>, b: seq<Document>)
    requires multiset(a) == multiset(b)
    ensures Columns(a) == Columns(b)
  {
    AllKeysSpec(a);
    AllKeysSpec(b);
    assert forall d :: d in a <==> d in b by {
      forall d ensures d in a <==> d in b {
        assert d in a <==> d in multiset(a);
        assert d in b <==> d in multiset(b);
      }
    }
    assert AllKeys(a) == AllKeys(b);
    if a == [] {
      assert |b| == |multiset(b)| == 0;
    } else {
      assert a[0] in multiset(b);
    }
  }

  /** Inserts a key before the first key it does not follow. */
  function InsertKey(x: string, s: seq<string>): (r: seq<string>)
    ensures multiset(r) == multiset(s) + multiset{x}
  {
    if s == [] || StrLe(x, s[0]) then [x] + s
    else
      assert s == [s[0]] + s[1..];
      [s[0]] + InsertKey(x, s[1..])
  }

  /** Inserting into an ascending list keeps it ascending. */
  lemma {:induction false} InsertKeySorted(x: string, s: seq<string>)
    requires Sorted(s)
    ensures Sorted(InsertKey(x, s))
  {
    if s == [] || StrLe(x, s[0]) {
      forall j | 0 <= j < |s| ensures StrLe(x, s[j]) {
        if j > 0 {
          StrLeTransitive(x, s[0], s[j]);
        }
      }
    } else {
      var t := InsertKey(x, s[1..]);
      InsertKeySorted(x, s[1..]);
      assert s == [s[0]] + s[1..];
      StrLeTotal(x, s[0]);
      forall j | 0 <= j < |t| ensures StrLe(s[0], t[j]) {
        assert t[j] in multiset(t);
        if t[j] != x {
          assert t[j] in multiset(s[1..]);
          var k :| 0 <= k < |s[1..]| && s[1..][k] == t[j];
          assert s[k + 1] == t[j];
        }
      }
      assert InsertKey(x, s) == [s[0]] + t;
    }
  }

  /** Python's `sorted` on a list of strings. */
  function SortKeys(s: seq<string>): (r: seq<string>)
    ensures multiset(r) == multiset(s)
  {
    if s == [] then []
    else
      assert s == [s[0]] + s[1..];
      InsertKey(s[0], SortKeys(s[1..]))
  }

  /** `sorted` gives an ascending list. */
  lemma {:induction false} SortKeysSorted(s: seq<string>)
    ensures Sorted(SortKeys(s))
  {
    if s != [] {
      SortKeysSorted(s[1..]);
      InsertKeySorted(s[0], SortKeys(s[1..]));
    }
  }

  lemma OnceMeansDistinct(r: seq<string>, i: nat, j: nat)
    requires i < j < |r| && multiset(r)[r[i]] <= 1
    ensures r[i] != r[j]
  {
    assert r == r[..j] + r[j..];
    assert r[..j][i] == r[i];
    assert multiset(r)[r[i]] == multiset(r[..j])[r[i]] + multiset(r[j..])[r[i]];
    assert r[j..][0] == r[j];
  }

  /** Sorting the elements of a set, in whatever order the set was listed, gives `SortedSet`. */
  lemma SortedListOfSet(r: seq<string>, s: set<string>)
    requires Sorted(r) && multiset(r) == multiset(s)
    ensures r == SortedSet(s)
  {
    forall i, j | 0 <= i < j < |r| ensures r[i] != r[j] {
      OnceMeansDistinct(r, i, j);
    }
    forall k ensures k in r <==> k in s {
      assert k in r <==> k in multiset(r);
    }
    SortedSetSpec(s);
    SortedUnique(r, SortedSet(s));
  }

  /** The heading text: the column name, with ` ↑` or ` ↓` on the column the page is sorted by. */
  function Heading(column: string, sortColumn: Option<string>, dir: int): (r: string)
    ensures column <= r && |r| <= |column| + 2
    ensures r == column <==> sortColumn != Some(column)
    ensures sortColumn == Some(column) ==>
              |r| == |column| + 2 && r[|column|] == ' ' && r[|column| + 1] == (if dir == 1 then '↑' else '↓')
  {
    if sortColumn == Some(column) then column + [' ', if dir == 1 then '↑' else '↓']
    else column
  }

  /** The headings of the columns, in column order. */
  function Headings(columns: seq<string>, sortColumn: Option<string>, dir: int): (r: seq<string>)
    ensures |r| == |columns|
  {
    if columns == [] then []
    else Headings(columns[..|columns| - 1], sortColumn, dir) + [Heading(columns[|columns| - 1], sortColumn, dir)]
  }

  /** Heading j is the heading of column j. */
  lemma {:induction false} HeadingsSpec(columns: seq<string>, sortColumn: Option<string>, dir: int)
    ensures forall j :: 0 <= j < |columns| ==> Headings(columns, sortColumn, dir)[j] == Heading(columns[j], sortColumn, dir)
  {
    if columns != [] {
      HeadingsSpec(columns[..|columns| - 1], sortColumn, dir);
    }
  }

  /**
   * The text of one cell. A missing or null field is empty. An object or array is its compact
   * JSON cut to 150 characters, always followed by "...". Anything else is its text cut to 150.
   */
  function CellText(c: Codec, v: Option<Value>): (r: string)
    ensures v.None? || v == Some(Null) ==> r == ""
    ensures v.Some? && IsStructured(v.value) ==>
              |r| == (if |c.compact(v.value)| < MaxColumnWidth then |c.compact(v.value)| else MaxColumnWidth) + 3
              && r[..|r| - 3] <= c.compact(v.value) && r[|r| - 3..] == "..."
    ensures v.Some? && v.value != Null && !IsStructured(v.value) ==>
              |r| == (if |ScalarText(v.value)| < MaxColumnWidth then |ScalarText(v.value)| else MaxColumnWidth)
              && r <= ScalarText(v.value)
  {
    match v
    case None => ""
    case Some(x) =>
      if x == Null then ""
      else if IsStructured(x) then Take(c.compact(x), MaxColumnWidth) + "..."
      else Take(ScalarText(x), MaxColumnWidth)
  }

  /** A grid row: its key and the text of each of its cells. */
  datatype Row = Row(key: string, cells: seq<string>)

  /** The cells of one document, one per column. */
  function Cells(c: Codec, columns: seq<string>, d: Document): (r: seq<string>)
    ensures |r| == |columns|
  {
    if columns == [] then []
    else Cells(c, columns[..|columns| - 1], d) + [CellText(c, Get(d, columns[|columns| - 1]))]
  }

  /** Cell j renders the document's value under column j. */
  lemma {:induction false} CellsSpec(c: Codec, columns: seq<string>, d: Document)
    ensures forall j :: 0 <= j < |columns| ==> Cells(c, columns, d)[j] == CellText(c, Get(d, columns[j]))
  {
    if columns != [] {
      CellsSpec(c, columns[..|columns| - 1], d);
    }
  }

  /** The rows of a page, in the order the documents arrived, each keyed by its row key. */
  function RenderRows(c: Codec, columns: seq<string>, docs: seq<Document>): (r: seq<Row>)
    ensures |r| == |docs|
  {
    if docs == [] then []
    else
      RenderRows(c, columns, docs[..|docs| - 1]) + [Row(RowKey(c, docs[|docs| - 1]), Cells(c, columns, docs[|docs| - 1]))]
  }

  /** Row i is keyed by document i's row key and holds document i's cells. */
  lemma {:induction false} RenderRowsSpec(c: Codec, columns: seq<string>, docs: seq<Document>)
    ensures forall i :: 0 <= i < |docs| ==> RenderRows(c, columns, docs)[i] == Row(RowKey(c, docs[i]), Cells(c, columns, docs[i]))
  {
    if docs != [] {
      RenderRowsSpec(c, columns, docs[..|docs| - 1]);
    }
  }

  /** `all_keys.update(doc.keys())` for each document in turn. */
  method CollectKeys(docs: seq<Document>) returns (keys: set<string>)
    ensures keys == AllKeys(docs)
  {
    keys := {};
    for i := 0 to |docs|
      invariant keys == AllKeys(docs[..i])
    {
      assert docs[..i + 1][..i] == docs[..i];
      keys := keys + docs[i].Keys;
    }
    assert docs[..|docs|] == docs;
  }

  /** `sorted(k for k in all_keys if k != '_id')`: the keys other than `_id`, ascending. */
  method SortedOtherKeys(keys: set<string>) returns (sorted: seq<string>)
    ensures sorted == SortedSet(keys - {"_id"})
  {
    var rest := keys - {"_id"};
    var others: seq<string> := [];
    while rest != {}
      invariant rest <= keys - {"_id"}
      invariant multiset(others) + multiset(rest) == multiset(keys - {"_id"})
      decreases |rest|
    {
      var k :| k in rest;
      others := others + [k];
      rest := rest - {k};
    }
    sorted := SortKeys(others);
    SortKeysSorted(others);
    SortedListOfSet(sorted, keys - {"_id"});
  }

  /** One heading per column, in column order. */
  method BuildHeadings(columns: seq<string>, sortColumn: Option<string>, dir: int) returns (headings: seq<string>)
    ensures headings == Headings(columns, sortColumn, dir)
  {
    headings := [];
    for j := 0 to |columns|
      invariant headings == Headings(columns[..j], sortColumn, dir)
    {
      assert columns[..j + 1][..j] == columns[..j];
      headings := headings + [Heading(columns[j], sortColumn, dir)];
    }
    assert columns[..|columns|] == columns;
  }

  /** The `values` list of one document: one cell per column. */
  method BuildCells(c: Codec, columns: seq<string>, d: Document) returns (values: seq<string>)
    ensures values == Cells(c, columns, d)
  {
    values := [];
    for j := 0 to |columns|
      invariant values == Cells(c, columns[..j], d)
    {
      assert columns[..j + 1][..j] == columns[..j];
      values := values + [CellText(c, Get(d, columns[j]))];
    }
    assert columns[..|columns|] == columns;
  }

  /** One row per document, in arrival order. */
  method BuildRows(c: Codec, columns: seq<string>, docs: seq<Document>) returns (rows: seq<Row>)
    ensures rows == RenderRows(c, columns, docs)
  {
    rows := [];
    for i := 0 to |docs|
      invariant rows == RenderRows(c, columns, docs[..i])
    {
      var values := BuildCells(c, columns, docs[i]);
      assert docs[..i + 1][..i] == docs[..i];
      rows := rows + [Row(RowKey(c, docs[i]), values)];
    }
    assert docs[..|docs|] == docs;
  }

  /** What the grid shows: the column ids, their headings, and the rows. */
  datatype Grid = Grid(columns: seq<string>, headings: seq<string>, rows: seq<Row>)

  /** The grid of a page: its columns, their headings, and one row per document. */
  ghost function GridOf(c: Codec, docs: seq<Document>, sortColumn: Option<string>, dir: int): Grid
  {
    var columns := Columns(docs);
    Grid(columns, Headings(columns, sortColumn, dir), RenderRows(c, columns, docs))
  }

  /**
   * Builds the grid for a page as `load_documents` does: the key union, the sorted column list,
   * the headings, then the cells row by row. A page without documents gives no columns and no rows.
   */
  method BuildTable(c: Codec, docs: seq<Document>, sortColumn: Option<string>, dir: int) returns (g: Grid)
    ensures g == GridOf(c, docs, sortColumn, dir)
  {
    if docs == [] {
      return Grid([], [], []);
    }
    var keys := CollectKeys(docs);
    var others := SortedOtherKeys(keys);
    var columns := ["_id"] + others;
    var headings := BuildHeadings(columns, sortColumn, dir);
    var rows := BuildRows(c, columns, docs);
    g := Grid(columns, headings, rows);
  }
}

=== FILE: text.dfy ===
/**
 * The string operations of the Python standard library that the explorer relies on:
 * `str.isspace`, `str.strip`, slicing, `str.replace`, `str.startswith`, the ordering of
 * `sorted()` on strings and `str()` of an integer.
 */
module Text {

  /** `c.isspace()`; the same characters are what `\s` matches in a `str` regular expression. */
  predicate IsSpace(c: char)
  {
    c == ' ' || '\t' <= c <= '\r' || '\U{1c}' <= c <= '\U{1f}' || c == '\U{85}' || c == '\U{a0}'
    || c == '\U{1680}' || '\U{2000}' <= c <= '\U{200a}' || c == '\U{2028}' || c == '\U{2029}'
    || c == '\U{202f}' || c == '\U{205f}' || c == '\U{3000}'
  }

  /** `s.lstrip()`: the suffix of `s` left after dropping leading whitespace. */
  function StripLeft(s: string): (r: string)
    ensures |r| <= |s| && r == s[|s| - |r|..]
  {
    if s != [] && IsSpace(s[0]) then StripLeft(s[1..]) else s
  }

  /** What `lstrip` drops is whitespace, and what it keeps does not start with whitespace. */
  lemma {:induction false} StripLeftDropsSpace(s: string)
    ensures forall i :: 0 <= i < |s| - |StripLeft(s)| ==> IsSpace(s[i])
    ensures StripLeft(s) == [] || !IsSpace(StripLeft(s)[0])
  {
    if s != [] && IsSpace(s[0]) {
      StripLeftDropsSpace(s[1..]);
      forall i | 0 < i < |s| - |StripLeft(s)| ensures IsSpace(s[i]) {
        assert s[i] == s[1..][i - 1];
      }
    }
  }

  /** `s.rstrip()`: the prefix of `s` left after dropping trailing whitespace. */
  function StripRight(s: string): (r: string)
    ensures |r| <= |s| && r == s[..|r|]
  {
    if s != [] && IsSpace(s[|s| - 1]) then StripRight(s[..|s| - 1]) else s
  }

  /** What `rstrip` drops is whitespace, and what it keeps does not end with whitespace. */
  lemma {:induction false} StripRightDropsSpace(s: string)
    ensures forall i :: |StripRight(s)| <= i < |s| ==> IsSpace(s[i])
    ensures StripRight(s) == [] || !IsSpace(StripRight(s)[|StripRight(s)| - 1])
  {
    if s != [] && IsSpace(s[|s| - 1]) {
      StripRightDropsSpace(s[..|s| - 1]);
      forall i | |StripRight(s)| <= i < |s| - 1 ensures IsSpace(s[i]) {
        assert s[i] == s[..|s| - 1][i];
      }
    }
  }

  /** `s.strip()`. */
  function Strip(s: string): (r: string)
    ensures |r| <= |s|
  {
    StripRight(StripLeft(s))
  }

  /**
   * The stripped text neither starts nor ends with whitespace, and it is empty exactly when `s`
   * is all whitespace, which is Python's `if not s.strip()`.
   */
  lemma StripTrimsSpace(s: string)
    ensures Strip(s) == [] || (!IsSpace(Strip(s)[0]) && !IsSpace(Strip(s)[|Strip(s)| - 1]))
    ensures Strip(s) == [] <==> forall i :: 0 <= i < |s| ==> IsSpace(s[i])
  {
    var t := StripLeft(s);
    var r := StripRight(t);
    StripLeftDropsSpace(s);
    StripRightDropsSpace(t);
    assert r != [] ==> r[0] == t[0];
    assert r == [] ==> t == [];
    if r == [] {
      forall i | 0 <= i < |s| ensures IsSpace(s[i]) {
        assert |t| == 0;
      }
    }
  }

  /** Stripping text that has no surrounding whitespace, after a line break was appended, gives it back. */
  lemma StripAppendedNewline(s: string)
    requires s == [] || (!IsSpace(s[0]) && !IsSpace(s[|s| - 1]))
    ensures Strip(s + "\n") == s
  {
    var t := s + "\n";
    assert IsSpace(t[|t| - 1]);
    if s == [] {
      assert StripLeft(t) == StripLeft(t[1..]) == [];
    } else {
      assert t[0] == s[0];
      assert StripLeft(t) == t;
      assert t[..|t| - 1] == s;
      assert StripRight(t) == StripRight(s) == s;
    }
  }

  /** `s[:n]` for a non-negative `n`. */
  function Take(s: string, n: nat): (r: string)
    ensures |r| == if |s| <= n then |s| else n
    ensures r <= s
  {
    if |s| <= n then s else s[..n]
  }

  /** `s.replace("'", '"')`. */
  function SwapQuotes(s: string): (r: string)
    ensures |r| == |s|
    ensures forall i :: 0 <= i < |s| ==> r[i] == if s[i] == '\'' then '"' else s[i]
    ensures '\'' !in r
    ensures '\'' !in s ==> r == s
  {
    if s == [] then [] else [if s[0] == '\'' then '"' else s[0]] + SwapQuotes(s[1..])
  }

  /** The rewrite works character by character, so it can be applied to the parts of a text. */
  lemma {:induction false} SwapQuotesAppend(a: string, b: string)
    ensures SwapQuotes(a + b) == SwapQuotes(a) + SwapQuotes(b)
  {
    if a != [] {
      assert (a + b)[1..] == a[1..] + b;
      SwapQuotesAppend(a[1..], b);
    }
  }

  /** A single apostrophe between two apostrophe-free texts becomes a double quote. */
  lemma SwapOneQuote(a: string, b: string)
    requires '\'' !in a && '\'' !in b
    ensures SwapQuotes(a + "'" + b) == a + "\"" + b
  {
    var q := SwapQuotes("'");
    assert |q| == 1 && q[0] == '"';
    assert q == "\"";
    SwapQuotesAppend(a, "'");
    SwapQuotesAppend(a + "'", b);
    assert SwapQuotes(a) == a && SwapQuotes(b) == b;
  }

  /** `s.startswith('{') or s.startswith('[')`. */
  predicate StartsWithBracket(s: string)
  {
    |s| > 0 && (s[0] == '{' || s[0] == '[')
  }

  /** Python's `a <= b` on strings: lexicographic by code point, a proper prefix first. */
  predicate StrLe(a: string, b: string)
  {
    a == [] || (b != [] && (a[0] < b[0] || (a[0] == b[0] && StrLe(a[1..], b[1..]))))
  }

  lemma {:induction false} StrLeTotal(a: string, b: string)
    ensures StrLe(a, b) || StrLe(b, a)
  {
    if a != [] && b != [] && a[0] == b[0] {
      StrLeTotal(a[1..], b[1..]);
    }
  }

  lemma {:induction false} StrLeTransitive(a: string, b: string, c: string)
    requires StrLe(a, b) && StrLe(b, c)
    ensures StrLe(a, c)
  {
    if a != [] && a[0] == b[0] && b[0] == c[0] {
      StrLeTransitive(a[1..], b[1..], c[1..]);
    }
  }

  lemma {:induction false} StrLeAntisymmetric(a: string, b: string)
    requires StrLe(a, b) && StrLe(b, a)
    ensures a == b
  {
    if a != [] {
      StrLeAntisymmetric(a[1..], b[1..]);
      assert a == [a[0]] + a[1..];
      assert b == [b[0]] + b[1..];
    }
  }

  /** The decimal digit character for `d`. */
  function DigitChar(d: nat): (c: char)
    requires d < 10
    ensures '0' <= c <= '9'
  {
    "0123456789"[d]
  }

  /** The value of a decimal digit character. */
  function DigitValue(c: char): nat
  {
    if '0' <= c <= '9' then (c - '0') as nat else 0
  }

  /** `str(n)` for a non-negative integer: its decimal digits, without leading zeros. */
  function NatToDecimal(n: nat): (r: string)
    ensures r != [] && (forall i :: 0 <= i < |r| ==> '0' <= r[i] <= '9')
    ensures |r| > 1 ==> r[0] != '0'
  {
    (if n < 10 then [] else NatToDecimal(n / 10)) + [DigitChar(n % 10)]
  }

  /** Reads a string of decimal digits back as a number (the inverse of `NatToDecimal`). */
  function DecimalValue(s: string): nat
  {
    if s == [] then 0 else 10 * DecimalValue(s[..|s| - 1]) + DigitValue(s[|s| - 1])
  }

  lemma {:induction false} DecimalRoundTrip(n: nat)
    ensures DecimalValue(NatToDecimal(n)) == n
  {
    var r := NatToDecimal(n);
    var d := DigitChar(n % 10);
    assert r[..|r| - 1] == (if n < 10 then [] else NatToDecimal(n / 10));
    assert "0123456789"[n % 10] - '0' == (n % 10) as char;
    assert DigitValue(d) == n % 10;
    if n >= 10 {
      DecimalRoundTrip(n / 10);
    }
  }

  /**
   * `str(i)` for any integer: a minus sign exactly for a negative number, then the decimal digits
   * of its magnitude without leading zeros.
   */
  function IntToDecimal(i: int): (r: string)
    ensures r != []
    ensures (r[0] == '-') <==> i < 0
    ensures var digits := if i < 0 then r[1..] else r;
            digits != [] && (forall k :: 0 <= k < |digits| ==> '0' <= digits[k] <= '9')
            && (|digits| > 1 ==> digits[0] != '0')
            && DecimalValue(digits) == if i < 0 then -i else i
  {
    var n: nat := if i < 0 then -i else i;
    var digits := NatToDecimal(n);
    DecimalRoundTrip(n);
    if i < 0 then assert ("-" + digits)[1..] == digits; "-" + digits else digits
  }
}

=== FILE: wrappers.dfy ===
/** Optional values: `None` stands for Python's `None` and for a library call that raised. */
module Wrappers {
  datatype Option<+T> = None | Some(value: T)
}
